=== FILE: README.md ===
# An LSM key-value store, modelled in Dafny

This project models the core of a small log-structured merge (LSM) key-value
store. The store has five parts:

- **Values and cells.** A `Value` is a payload or a deletion marker
  (tombstone), stamped with a timestamp. A `Cell` is a key, a value and the
  generation of the table that holds it. Cells are ordered by key ascending,
  then timestamp descending, then generation descending.
- **The memory table.** This is a sorted map from key to value that takes
  every write. It keeps a byte counter that is updated on each write, and it
  has a fixed generation.
- **Sorted tables.** An `STable` is a table file written once from a memory
  table. Each record holds a big-endian key length, the key, the timestamp, a
  tombstone flag, and, for a live value, its length and payload. After the
  records comes a footer: one `long` offset per row, then an `int` row count.
  A lower-bound binary search (`findIndex`) finds where a scan starts. File
  names spell the generation: `LSM-DB-GEN-<g>.data`.
- **The engine** (`MyDAO`). On open it picks up the table files of a
  directory. Writes go to the memory table, which is flushed to a new table
  once its byte count exceeds a threshold. A scan merges every table and the
  memory table, keeps the newest version of each key, drops tombstones and
  projects the rest to records.
- **Close.** Closing the store flushes the memory table if its byte counter
  is positive (see Findings).

Files are byte sequences and a directory is a map from name to contents. The
library iterators (sorted merge, collapse of equal keys, filter, transform)
become functions on sequences, evaluated eagerly.

Modules, in dependency order:

- `Common`: bytes, Java integer widths, `Wrap32`, `Result`/`Option`.
- `KeyOrder`: `ByteBuffer.compareTo` and the `TreeMap` key order.
- `BigEndian`: `putLong`/`getLong` and `putInt`/`getInt`.
- `Versions`: `Value`, `Cell` and their comparisons.
- `CellSeqs`: ascending runs of cells and the tail from a key.
- `TableFormat`: the file image and positional reads.
- `TableScan`: row reads, `findIndex`, `iteratorFromTable`, and the
  write/read round trip.
- `MemTable`: the memory table.
- `FileNames`: table file names and `getVersionFromName`.
- `MergeScan`: the read pipeline.
- `MyDao`: the engine.

Two details of the code shape the model:

- **Key bytes compare as signed values.** `ByteBuffer.compareTo` compares
  signed bytes, so the key `[0x80]` sorts before `[0x00]`.
- **`remove` of an absent key charges the key's length.** The byte counter
  grows by the key's length, just as a first insertion does. So the counter
  always equals the closed-form sum `Σ len(key) + (live ? len(payload) : 0)`.

## Model

| member | source | states |
|---|---|---|
| Common.Wrap32 | src/main/java/ru/mail/polis/pokrovskiy/STable.java:60 | The `(int)` narrowing of a position leaves every value that fits in an `int` unchanged. |
| KeyOrder.KeyCompare | src/main/java/ru/mail/polis/pokrovskiy/Cell.java:43 | `ByteBuffer.compareTo` on keys: the first differing signed byte decides, and otherwise the shorter key is smaller. KeyCompareZero, KeyCompareAntisymmetric, KeyLessTransitive and KeyLessTotal below show that this is a strict total order on keys. |
| KeyOrder.KeyCompareZero | src/main/java/ru/mail/polis/pokrovskiy/Cell.java:43 | The key comparison is zero exactly when the two keys are equal. |
| KeyOrder.KeyCompareAntisymmetric | src/main/java/ru/mail/polis/pokrovskiy/Cell.java:43 | Swapping the two keys negates the comparison. |
| KeyOrder.KeyLessTransitive | src/main/java/ru/mail/polis/pokrovskiy/Cell.java:43 | The strict key order is transitive. |
| KeyOrder.KeyLessTotal | src/main/java/ru/mail/polis/pokrovskiy/Cell.java:43 | Any two distinct keys are ordered one way, and only one way; no key is below itself. |
| KeyOrder.KeyLeTransitive | src/main/java/ru/mail/polis/pokrovskiy/Cell.java:43 | The non-strict key order is transitive. |
| KeyOrder.EmptyKeyLeast | src/main/java/ru/mail/polis/pokrovskiy/MyDAO.java:18 | The empty key `MIN_BYTE_BUFFER` is at or below every key, so a scan from it covers every key. |
| KeyOrder.MinKey | src/main/java/ru/mail/polis/pokrovskiy/MemoryTable.java:18 | A non-empty key set has a member that is at or below all of its members. |
| KeyOrder.SortedKeys | src/main/java/ru/mail/polis/pokrovskiy/MemoryTable.java:18 | The `TreeMap` key traversal lists exactly the key set, each key once, in strictly ascending order. |
| BigEndian.DecodeEncodeNat | src/main/java/ru/mail/polis/pokrovskiy/STable.java:62-67 | Decoding `n` big-endian bytes gives back any number below 256^n that was encoded. |
| BigEndian.Int64RoundTrip | src/main/java/ru/mail/polis/pokrovskiy/STable.java:62-67 | `getLong` returns every `long` that `putLong` wrote, negative ones included. |
| BigEndian.Int32RoundTrip | src/main/java/ru/mail/polis/pokrovskiy/STable.java:86-88 | `getInt` returns every `int` that `putInt` wrote. |
| Versions.Live | src/main/java/ru/mail/polis/pokrovskiy/MemoryTable.java:28 | A write creates a live value carrying exactly the given payload and clock reading, with the tombstone flag clear. |
| Versions.Tombstone | src/main/java/ru/mail/polis/pokrovskiy/MemoryTable.java:42 | A remove creates a tombstone: the flag is set and there is no payload. |
| Versions.CellOf | src/main/java/ru/mail/polis/pokrovskiy/Cell.java:21-26 | `Cell.of` builds the cell with exactly the given key, value and generation. |
| Versions.CellCompare | src/main/java/ru/mail/polis/pokrovskiy/Cell.java:40-48 | `Cell.compareTo` orders by key, then by value with newer first, then by generation reversed. The CellOrderBy rows state each level against the fields, and the CellCompare/CellLe law rows below show that it is a total preorder that ties only cells with equal key, timestamp and generation. |
| Versions.ValueCompare | src/main/java/ru/mail/polis/pokrovskiy/Value.java:35-38 | The result is negative iff the first value is newer, zero iff the timestamps are equal, and positive iff it is older. |
| Versions.CellOrderByKey | src/main/java/ru/mail/polis/pokrovskiy/Cell.java:43 | Cells with different keys compare as their keys do. |
| Versions.CellOrderByTimestamp | src/main/java/ru/mail/polis/pokrovskiy/Cell.java:44 | Among equal keys, the later timestamp sorts first. |
| Versions.CellOrderByGeneration | src/main/java/ru/mail/polis/pokrovskiy/Cell.java:45 | Among equal keys and timestamps, the higher generation sorts first; the comparison is zero iff the generations are equal. |
| Versions.CellCompareZero | src/main/java/ru/mail/polis/pokrovskiy/Cell.java:40-48 | The comparison is zero iff key, timestamp and generation all coincide; payload and flag play no part. |
| Versions.CellCompareAntisymmetric | src/main/java/ru/mail/polis/pokrovskiy/Cell.java:40-48 | Swapping the cells flips the sign and keeps zero. |
| Versions.CellLeTotal | src/main/java/ru/mail/polis/pokrovskiy/Cell.java:40-48 | Any two cells are comparable, and the order is reflexive. |
| Versions.CellLeTransitive | src/main/java/ru/mail/polis/pokrovskiy/Cell.java:40-48 | The cell order is transitive, so it is a total preorder. |
| Versions.CellLeAntisymmetric | src/main/java/ru/mail/polis/pokrovskiy/Cell.java:40-48 | Cells ordered both ways agree on key, timestamp and generation. |
| Versions.CellLeKeyLe | src/main/java/ru/mail/polis/pokrovskiy/Cell.java:43 | A cell that sorts no later has a key that is no greater. |
| CellSeqs.AtOrAfter | src/main/java/ru/mail/polis/pokrovskiy/MemoryTable.java:22-24 | `tailMap(from)`: keeps exactly the cells whose key is not below `from`, and keeps ascending order. |
| CellSeqs.AscendingUnique | src/main/java/ru/mail/polis/pokrovskiy/STable.java:159-178 | Two key-ascending sequences with the same members are the same sequence. |
| CellSeqs.SuffixIsAtOrAfter | src/main/java/ru/mail/polis/pokrovskiy/STable.java:159-178 | The suffix of an ascending sequence from the lower bound of `from` is its tail from `from`. |
| CellSeqs.AtOrAfterEmptyKey | src/main/java/ru/mail/polis/pokrovskiy/STable.java:57 | The tail of an ascending sequence from the empty key is the whole sequence. |
| TableFormat.RecordFields | src/main/java/ru/mail/polis/pokrovskiy/STable.java:62-76 | A record is the key length, the key, the timestamp and the flag byte (1 for a tombstone); a live value then has its length and payload, and nothing follows. |
| TableFormat.RecordStartStep | src/main/java/ru/mail/polis/pokrovskiy/STable.java:55-60 | The first record starts at 0, and each next one starts where the previous record ends. |
| TableFormat.OffsetPlacement | src/main/java/ru/mail/polis/pokrovskiy/STable.java:79-85 | Entry `i` of the offset table is the `int`-narrowed start of record `i`, written as a `long`. |
| TableFormat.TableImage | src/main/java/ru/mail/polis/pokrovskiy/STable.java:49-92 | The file is the records, then 8 bytes per row, then 4 bytes of row count. |
| TableFormat.RecordsAppend | src/main/java/ru/mail/polis/pokrovskiy/STable.java:58-77 | The record area of two runs of cells is the two record areas joined. |
| TableFormat.RecordPlacement | src/main/java/ru/mail/polis/pokrovskiy/STable.java:58-77 | Record `i` lies inside the record area, starting at its recorded start. |
| TableFormat.ReadAt | src/main/java/ru/mail/polis/pokrovskiy/STable.java:97-98 | A positional read returns exactly the bytes asked for, or fails. |
| TableFormat.FillInside | src/main/java/ru/mail/polis/pokrovskiy/STable.java:97-98 | A read that lies inside the file returns that slice of the file. |
| TableFormat.LengthAt | src/main/java/ru/mail/polis/pokrovskiy/STable.java:103 | A length field that is accepted fits a buffer of `int` size. |
| TableFormat.OpenTable | src/main/java/ru/mail/polis/pokrovskiy/STable.java:23-28 | An opened table keeps its file and the generation it was opened with. |
| TableFormat.RowCount | src/main/java/ru/mail/polis/pokrovskiy/STable.java:179-186 | `getRowCount` fails exactly when the file is shorter than four bytes, because the read position is then negative. Otherwise it decodes the file's last four bytes. OpenWritten shows that on a written image it returns the number of rows. |
| TableFormat.Offset | src/main/java/ru/mail/polis/pokrovskiy/STable.java:188-195 | `getOffset(i)` fails exactly when its footer position `size - 4 - 8 * (rowCount - i)` is negative. The subtraction `rowCount - i` wraps as `int` arithmetic does; for `0 <= i <= rowCount` there is no wrap. OffsetWritten shows that on a written image it returns the start of record `i`. |
| TableFormat.OffsetWrapsLikeInt | src/main/java/ru/mail/polis/pokrovskiy/STable.java:191 | On a corrupt row count of -2^31, the binary search's first midpoint 2^30 - 1 wraps `rowCount - i` to 2^30 + 1. For any file under 8 GiB the footer position is then negative and the read fails. |
| TableFormat.CellAtOffset | src/main/java/ru/mail/polis/pokrovskiy/STable.java:108-156 | A cell read from a file pairs the flag with an absent payload and carries the table's generation. |
| TableFormat.CellAt | src/main/java/ru/mail/polis/pokrovskiy/STable.java:108-156 | Reading row `i` gives a well-formed cell of the table's generation. |
| TableFormat.KeyAt | src/main/java/ru/mail/polis/pokrovskiy/STable.java:94-106 | `getKey(i)`: a key read back is found at the row's offset, right after the 8-byte length field, and is exactly as long as that field says. CellAtKeyAt shows that it is the key of `getCell(i)`, so binary search over `getKey` sees the cells' keys. |
| TableFormat.CellAtKeyAt | src/main/java/ru/mail/polis/pokrovskiy/STable.java:94-106 | `getKey(i)` reads the same key as `getCell(i)` whenever the cell can be read. |
| TableFormat.RecordReadBack | src/main/java/ru/mail/polis/pokrovskiy/STable.java:108-156 | At a position holding an encoded record, the key read and the cell read return that record's key and value with the reader's generation. |
| TableFormat.OpenWritten | src/main/java/ru/mail/polis/pokrovskiy/STable.java:179-186 | `getRowCount` on a written file returns the number of cells written. |
| TableFormat.LongReadBack | src/main/java/ru/mail/polis/pokrovskiy/STable.java:188-195 | A `long` read where one was encoded returns it. |
| TableFormat.OffsetWritten | src/main/java/ru/mail/polis/pokrovskiy/STable.java:188-195 | `getOffset(i)` reads exactly where the writer put offset `i`, and returns the start of record `i`. |
| TableFormat.ReadWritten | src/main/java/ru/mail/polis/pokrovskiy/STable.java:94-156 | On a written file, row `i` yields the `i`-th written offset, key and cell, with the table's generation. |
| TableScan.CellsFrom | src/main/java/ru/mail/polis/pokrovskiy/STable.java:159-178 | Reading rows `i` to the row count succeeds iff every row reads, and then yields those rows in file order. |
| TableScan.CellsFromSuffix | src/main/java/ru/mail/polis/pokrovskiy/STable.java:159-178 | Reading from row `i` yields the suffix from `i` of all rows. |
| TableScan.ScanStart | src/main/java/ru/mail/polis/pokrovskiy/STable.java:201-222 | The lower bound: every row before the result is below `from`, and the row at the result (if any) is not. |
| TableScan.ScanStartSorted | src/main/java/ru/mail/polis/pokrovskiy/STable.java:201-222 | On sorted rows the lower bound exists, and every row from it on is at or above `from`. |
| TableScan.LowerBoundUnique | src/main/java/ru/mail/polis/pokrovskiy/STable.java:201-222 | Only one index separates the rows below `from` from those at or above it. |
| TableScan.LowerBoundAtKey | src/main/java/ru/mail/polis/pokrovskiy/STable.java:201-222 | When `from` is present, the lower bound is its index. |
| TableScan.FindIndex | src/main/java/ru/mail/polis/pokrovskiy/STable.java:201-222 | The binary search returns `low` on an empty range. On strictly sorted rows it returns a value in `[low, high+1]`: the index of `from` if present, else the lower bound, the same as `ScanStart`. |
| TableScan.WellFormedSorted | src/main/java/ru/mail/polis/pokrovskiy/STable.java:94-106 | A well-formed table's keys, read by `getKey`, are those of its rows and strictly ascending. |
| TableScan.TableScanSpec | src/main/java/ru/mail/polis/pokrovskiy/STable.java:159-178 | `iteratorFromTable(from)` on a well-formed table yields exactly its rows with key at or after `from`, in order. |
| TableScan.TableCellsTagged | src/main/java/ru/mail/polis/pokrovskiy/STable.java:135-151 | Every row read from a table is well-formed and carries the table's generation. |
| TableScan.IteratorFromTable | src/main/java/ru/mail/polis/pokrovskiy/STable.java:159-178 | Starts at `findIndex(from, 0, rowCount-1)`. An empty table yields nothing; a well-formed table yields its rows from `from` on. |
| TableScan.WrittenCellsFrom | src/main/java/ru/mail/polis/pokrovskiy/STable.java:49-92 | Reading a written file from row `i` gives back the written cells from `i`. |
| TableScan.WrittenTable | src/main/java/ru/mail/polis/pokrovskiy/STable.java:49-92 | `writeTable` then open: the table has the row count written and reads back exactly the written cells; ascending cells give a well-formed table. |
| TableScan.CompareTables | src/main/java/ru/mail/polis/pokrovskiy/STable.java:229-232 | Tables compare by generation alone. |
| MemTable.New | src/main/java/ru/mail/polis/pokrovskiy/MemoryTable.java:17-20 | A new table is empty, has size 0 and the given generation, and satisfies the counter invariant. |
| MemTable.FootprintSplit | src/main/java/ru/mail/polis/pokrovskiy/MemoryTable.java:13 | The closed-form size splits off at any key as that entry's cost plus the rest. |
| MemTable.Upsert | src/main/java/ru/mail/polis/pokrovskiy/MemoryTable.java:26-39 | The key maps to a live value with the payload; other keys and the generation are unchanged. The counter moves by `len(v)`, minus the old payload if live, plus `len(key)` if the key was absent. |
| MemTable.Remove | src/main/java/ru/mail/polis/pokrovskiy/MemoryTable.java:41-52 | The key maps to a tombstone; other keys and the generation are unchanged. The counter loses a live old payload, or gains `len(key)` if the key was absent. |
| MemTable.FootprintUpdate | src/main/java/ru/mail/polis/pokrovskiy/MemoryTable.java:26-52 | Overwriting one entry changes the closed-form size by the change in that entry's cost. |
| MemTable.UpsertPreservesValid | src/main/java/ru/mail/polis/pokrovskiy/MemoryTable.java:26-39 | `upsert` keeps the counter equal to the sum of key and live-payload lengths, so it is never negative. |
| MemTable.RemovePreservesValid | src/main/java/ru/mail/polis/pokrovskiy/MemoryTable.java:41-52 | `remove` keeps the counter equal to the closed form, so it is never negative. |
| MemTable.Entries | src/main/java/ru/mail/polis/pokrovskiy/MemoryTable.java:22-24 | The table's cells are exactly its entries, each tagged with the table's generation, in strictly ascending key order. |
| MemTable.Iterator | src/main/java/ru/mail/polis/pokrovskiy/MemoryTable.java:22-24 | `iterator(from)` yields exactly the entries with key at or after `from`, ascending, tagged with the generation. |
| MemTable.IteratorWellFormed | src/main/java/ru/mail/polis/pokrovskiy/MemoryTable.java:22-24 | A valid table's scan yields only well-formed values. |
| MemTable.EntriesWellFormed | src/main/java/ru/mail/polis/pokrovskiy/MemoryTable.java:22-24 | Well-formed stored values give well-formed cells. |
| FileNames.Decimal | src/main/java/ru/mail/polis/pokrovskiy/STable.java:50 | The text of a generation is non-empty and made of digits and a minus sign only. |
| FileNames.DigitsValueOfDigits | src/main/java/ru/mail/polis/pokrovskiy/STable.java:198 | Reading printed digits gives back the number. |
| FileNames.ParseInt | src/main/java/ru/mail/polis/pokrovskiy/STable.java:198 | `Integer.parseInt` accepts only non-empty text, and all-digit text parses to the value of its digits. |
| FileNames.ParseDecimal | src/main/java/ru/mail/polis/pokrovskiy/STable.java:198 | Parsing a printed number gives it back when it fits in an `int`, and fails otherwise. |
| FileNames.DecimalSign | src/main/java/ru/mail/polis/pokrovskiy/STable.java:50 | A printed number starts with a minus sign iff it is negative. |
| FileNames.DecimalInjective | src/main/java/ru/mail/polis/pokrovskiy/STable.java:50 | Different numbers print differently. |
| FileNames.IndexFrom | src/main/java/ru/mail/polis/pokrovskiy/STable.java:198 | Finds the first occurrence of the pattern at or after a position, or reports that there is none. |
| FileNames.SecondPiece | src/main/java/ru/mail/polis/pokrovskiy/STable.java:198 | The second piece of the prefix split fails iff the prefix never occurs; otherwise the piece holds no prefix. |
| FileNames.RemoveExtension | src/main/java/ru/mail/polis/pokrovskiy/STable.java:198 | Deleting `.data` from decimal text followed by `.data` leaves the decimal text. |
| FileNames.NoLettersInDecimal | src/main/java/ru/mail/polis/pokrovskiy/STable.java:198 | Decimal text followed by `.data` holds no occurrence of the prefix. |
| FileNames.VersionFromName | src/main/java/ru/mail/polis/pokrovskiy/STable.java:197-199 | `getVersionFromName` fails with `NoSeparator` on a name that does not contain `LSM-DB-GEN-`. NameRoundTrip shows that it inverts the writer's name for every `int` generation and fails beyond that range. |
| FileNames.NameRoundTrip | src/main/java/ru/mail/polis/pokrovskiy/STable.java:197-199 | `getVersionFromName` returns `g` for the name `writeTable` builds for any `g` that fits in an `int`, and fails otherwise; the name ends with `.data`. |
| FileNames.FileNameInjective | src/main/java/ru/mail/polis/pokrovskiy/STable.java:50 | Different generations get different file names. |
| MergeScan.Merge | src/main/java/ru/mail/polis/pokrovskiy/MyDAO.java:49-50 | A binary merge holds exactly the cells of both inputs. |
| MergeScan.MergeSorted | src/main/java/ru/mail/polis/pokrovskiy/MyDAO.java:49-50 | Merging two sorted sequences gives a sorted sequence. |
| MergeScan.MergeAll | src/main/java/ru/mail/polis/pokrovskiy/MyDAO.java:49-50 | `mergeSorted` over all sources holds exactly the union of the sources. |
| MergeScan.MergeAllSorted | src/main/java/ru/mail/polis/pokrovskiy/MyDAO.java:49-50 | `mergeSorted` over sorted sources is sorted. |
| MergeScan.UnionMember | src/main/java/ru/mail/polis/pokrovskiy/MyDAO.java:44-48 | Every cell of the union comes from some source. |
| MergeScan.MemberUnion | src/main/java/ru/mail/polis/pokrovskiy/MyDAO.java:44-48 | Every cell of every source is in the union. |
| MergeScan.SortedUnique | src/main/java/ru/mail/polis/pokrovskiy/MyDAO.java:49-50 | Two sorted arrangements of the same cells, with no two sharing key and generation, are equal. So the merge order does not matter. |
| MergeScan.MergeAllUnique | src/main/java/ru/mail/polis/pokrovskiy/MyDAO.java:49-50 | Any sorted sequence of the union's cells, with no ties, is the merge. |
| MergeScan.SkipKey | src/main/java/ru/mail/polis/pokrovskiy/MyDAO.java:52 | Drops the leading run of a key: what is dropped has that key, and what is left starts with another key. |
| MergeScan.Collapse | src/main/java/ru/mail/polis/pokrovskiy/MyDAO.java:52 | `collapseEquals` keeps only cells of its input. |
| MergeScan.CollapseAscending | src/main/java/ru/mail/polis/pokrovskiy/MyDAO.java:52 | On sorted input, the kept cells have strictly ascending keys, so there are no duplicates. |
| MergeScan.CollapseNewest | src/main/java/ru/mail/polis/pokrovskiy/MyDAO.java:52 | On sorted input, each kept cell is the cell-order least (newest) of its key. |
| MergeScan.CollapseComplete | src/main/java/ru/mail/polis/pokrovskiy/MyDAO.java:52 | Every key of the input keeps a cell. |
| MergeScan.DropTombstones | src/main/java/ru/mail/polis/pokrovskiy/MyDAO.java:53 | The filter keeps exactly the live cells, and keeps ascending order. |
| MergeScan.RecordOf | src/main/java/ru/mail/polis/pokrovskiy/MyDAO.java:54 | A record has its cell's key and, for a live cell, its payload. |
| MergeScan.ToRecords | src/main/java/ru/mail/polis/pokrovskiy/MyDAO.java:54 | `Iterators.transform` maps each cell, position by position, to the record of its key and payload, keeping the length. |
| MergeScan.Pipeline | src/main/java/ru/mail/polis/pokrovskiy/MyDAO.java:49-54 | Merge, collapse, filter and transform, composed. PipelineSpec states its output: strictly ascending keys and one record per key whose newest cell is live. When no two cells tie, every such key is present and no key whose newest cell is a tombstone appears. |
| MergeScan.PipelineSpec | src/main/java/ru/mail/polis/pokrovskiy/MyDAO.java:43-61 | Over sorted sources, output keys are strictly ascending, and each record is the live newest cell of its key. Without ties, every key whose newest cell is live appears, and a key whose newest cell is a tombstone does not. |
| MergeScan.KeysAscendingSorted | src/main/java/ru/mail/polis/pokrovskiy/MyDAO.java:44-48 | A key-ascending source is sorted in the cell order. |
| MergeScan.DistinctSources | src/main/java/ru/mail/polis/pokrovskiy/MyDAO.java:44-48 | Ascending sources of pairwise distinct generations never hold two cells with the same key and generation. |
| MergeScan.FilteredUnion | src/main/java/ru/mail/polis/pokrovskiy/MyDAO.java:44-48 | Cutting every source at `from` cuts their union at `from`. |
| MergeScan.FilteredNewest | src/main/java/ru/mail/polis/pokrovskiy/MyDAO.java:44-48 | For a key at or after `from`, the newest cell among the cut sources is the newest among all. |
| MergeScan.ScanOfVersions | src/main/java/ru/mail/polis/pokrovskiy/MyDAO.java:43-61 | Scanning tie-free ascending sources from `from` gives strictly ascending records, and exactly one per key at or after `from` whose newest cell is live, with that cell's payload. |
| MergeScan.ShowsNewest | src/main/java/ru/mail/polis/pokrovskiy/MyDAO.java:49-54 | Without ties, a key shows a record iff its newest cell is live and at or after `from`, and the record is that cell's. |
| MyDao.OpenEntry | src/main/java/ru/mail/polis/pokrovskiy/STable.java:39 | An opened file keeps its contents, and its generation is the one its name spells. |
| MyDao.FindTables | src/main/java/ru/mail/polis/pokrovskiy/STable.java:30-47 | `findTables` with the real table opener. FindTablesWith states that it succeeds iff every `.data` file opens, and that the tables it returns are exactly the opened `.data` files, as a set. The order is not stated; MergeScan.SortedUnique makes the scan independent of it. OpenNamed shows that each table gets the generation its name spells. |
| MyDao.FindTablesWith | src/main/java/ru/mail/polis/pokrovskiy/STable.java:30-47 | `findTables` succeeds iff every `.data` file opens. The tables are then exactly the opened `.data` files. |
| MyDao.OpenNamed | src/main/java/ru/mail/polis/pokrovskiy/STable.java:39 | A file under the name of generation `g` opens as a table of generation `g`. |
| MyDao.NewestTable | src/main/java/ru/mail/polis/pokrovskiy/MyDAO.java:33 | `max(STable::compareTo)` is one of the tables, with a generation no lower than any other. |
| MyDao.Open | src/main/java/ru/mail/polis/pokrovskiy/MyDAO.java:27-39 | Opening succeeds iff `findTables` does. The generation is 0 with no tables, and otherwise one past the highest table generation, so above all of them. The memory table is empty and of that generation. |
| MyDao.NoFutureNames | src/main/java/ru/mail/polis/pokrovskiy/MyDAO.java:27-39 | No file in the directory bears the name of the new generation or any later one. |
| MyDao.FoundInv | src/main/java/ru/mail/polis/pokrovskiy/MyDAO.java:27-39 | A store built from found tables of distinct generations, with an empty memory table above them, keeps the store invariant. |
| MyDao.OpenInv | src/main/java/ru/mail/polis/pokrovskiy/MyDAO.java:27-39 | A directory of well-formed tables of distinct generations opens into a store that keeps the invariant. |
| MyDao.TableScans | src/main/java/ru/mail/polis/pokrovskiy/MyDAO.java:45-47 | Scanning the tables succeeds iff each table's scan does, and gives them in table order. |
| MyDao.ScansOfCells | src/main/java/ru/mail/polis/pokrovskiy/MyDAO.java:44-48 | Table scans that give each table's cells from `from` on, followed by the last source, are the sources cut at `from`. |
| MyDao.ScanSources | src/main/java/ru/mail/polis/pokrovskiy/MyDAO.java:44-48 | Under the invariant every table scan succeeds, and the merged sources are the store's contents cut at `from`. |
| MyDao.ContentsFacts | src/main/java/ru/mail/polis/pokrovskiy/MyDAO.java:44-48 | Under the invariant each source has ascending keys and a single generation, and the generations differ. |
| MyDao.OneVersion | src/main/java/ru/mail/polis/pokrovskiy/MyDAO.java:44-48 | Under the invariant no two held versions share key and generation. |
| MyDao.Scan | src/main/java/ru/mail/polis/pokrovskiy/MyDAO.java:43-61 | `iterator(from)`. ScanSpec states that on a store keeping the invariant it succeeds and returns strictly ascending records, exactly one per key at or after `from` whose newest held version is live, with that version's payload. |
| MyDao.ScanSpec | src/main/java/ru/mail/polis/pokrovskiy/MyDAO.java:43-61 | `iterator(from)` succeeds and yields strictly ascending records: exactly one per key at or after `from` whose newest held version is live, carrying that version's payload. |
| MyDao.Flush | src/main/java/ru/mail/polis/pokrovskiy/MyDAO.java:82-86 | Fails iff the file of the memory table's generation exists. Otherwise it adds that file and one table, advances the generation by one, and installs an empty memory table of the new generation. |
| MyDao.FlushedTable | src/main/java/ru/mail/polis/pokrovskiy/MyDAO.java:82-86 | The added table is the memory table's image, of its generation, and reads back exactly its entries as a well-formed table. |
| MyDao.GrownInv | src/main/java/ru/mail/polis/pokrovskiy/MyDAO.java:82-86 | Adding one well-formed table of the current generation, and moving to the next generation, keeps the invariant. |
| MyDao.FlushInv | src/main/java/ru/mail/polis/pokrovskiy/MyDAO.java:82-86 | A flush under the invariant succeeds and keeps it: distinct generations, memory table above all. |
| MyDao.FlushTransparent | src/main/java/ru/mail/polis/pokrovskiy/MyDAO.java:82-86 | A scan gives the same records before and after a flush. |
| MyDao.Settle | src/main/java/ru/mail/polis/pokrovskiy/MyDAO.java:67-69 | The store flushes iff the counter exceeds the threshold, and fails only if that flush fails. Afterwards the counter is at most a non-negative threshold. |
| MyDao.Upsert | src/main/java/ru/mail/polis/pokrovskiy/MyDAO.java:64-70 | Without a flush only the memory table changes, and it holds the new live value. Afterwards the counter is at most a non-negative threshold. |
| MyDao.Remove | src/main/java/ru/mail/polis/pokrovskiy/MyDAO.java:73-80 | Without a flush only the memory table changes, and it holds the tombstone. Afterwards the counter is at most a non-negative threshold. |
| MyDao.HeldSplit | src/main/java/ru/mail/polis/pokrovskiy/MyDAO.java:44-48 | The held versions are the tables' rows plus the memory table's entries. |
| MyDao.TablesOlder | src/main/java/ru/mail/polis/pokrovskiy/MyDAO.java:44-48 | Under the invariant every table version is older than the memory table. |
| MyDao.WriteInv | src/main/java/ru/mail/polis/pokrovskiy/MyDAO.java:64-80 | Replacing the memory table with a valid one of the same generation keeps the invariant. |
| MyDao.HeldAfterWrite | src/main/java/ru/mail/polis/pokrovskiy/MyDAO.java:64-80 | After a write of `key`, the versions of `key` are the new one plus older versions in the tables. |
| MyDao.HeldOthers | src/main/java/ru/mail/polis/pokrovskiy/MyDAO.java:64-80 | A write of `key` leaves every other key's versions unchanged. |
| MyDao.ShowsAfterWrite | src/main/java/ru/mail/polis/pokrovskiy/MyDAO.java:49-54 | When a new version outranks every other version of its key, the key shows the new version, if live and at or after `from`. Other keys show as before. |
| MyDao.ScanAfterWrite | src/main/java/ru/mail/polis/pokrovskiy/MyDAO.java:64-80 | After a memory-table write of `key`, a scan shows the written value for `key` (nothing for a tombstone). Every other key shows as before. |
| MyDao.UpsertScan | src/main/java/ru/mail/polis/pokrovskiy/MyDAO.java:64-70 | With the clock ahead of the key's stored versions, `upsert` keeps the invariant. A later scan then shows `value` for `key` from `from` on, and every other key as before, whether or not it flushed. |
| MyDao.RemoveScan | src/main/java/ru/mail/polis/pokrovskiy/MyDAO.java:73-80 | With the clock ahead, `remove` keeps the invariant. A later scan shows nothing for `key`, and every other key as before. |
| MyDao.Restarted | src/main/java/ru/mail/polis/pokrovskiy/MyDAO.java:27-39 | A reopened store keeps the tables, the directory and the generation, and starts with an empty memory table. That re-running the constructor gives exactly this is not proved (see Left out). |
| MyDao.CloseAsWritten | src/main/java/ru/mail/polis/pokrovskiy/MyDAO.java:89-92 | `close` as written: no flush when the byte counter is zero or negative, and exactly `flush` otherwise. CloseAsWrittenLosesData shows that this loses an acknowledged write. |
| MyDao.Close | src/main/java/ru/mail/polis/pokrovskiy/MyDAO.java:89-92 | The intended close leaves an empty memory table, and fails iff there are entries and the flush target exists. |
| MyDao.CloseAsWrittenLosesData | src/main/java/ru/mail/polis/pokrovskiy/MyDAO.java:89-92 | For a store holding only an empty value under the empty key, the close as written flushes nothing. The record shows before a restart and is gone after it. |
| MyDao.CloseDurable | src/main/java/ru/mail/polis/pokrovskiy/MyDAO.java:89-92 | The intended close keeps the invariant, and a scan after a restart shows what the store showed before the close. |

## Findings

| source | as written | input that shows it | evidently intended | confidence | as-written member | corrected member |
|---|---|---|---|---|---|---|
| src/main/java/ru/mail/polis/pokrovskiy/MyDAO.java:89-92 | `close` flushes only when the byte counter is positive. The counter is the sum of key and live-payload lengths, so a memory table whose only keys are empty, with empty values or tombstones, counts 0 bytes. | A fresh store; `upsert([], [])`; `close`. The memory table holds one entry but counts 0 bytes, so nothing is written. After reopening, the record is gone. | Flush whenever the memory table holds an entry, so every acknowledged write survives a close. | not executed | MyDao.CloseAsWrittenLosesData | MyDao.CloseDurable |

`MyDao.CloseAsWritten` is `close` as written. `MyDao.Close` is the corrected
close. `MyDao.CloseDurable` proves that the corrected close followed by a
restart keeps every record a scan showed.

## Left out

- Real file I/O is replaced by values. A file is its byte sequence, and a
  directory is a map from name to contents. `findTables`'s directory walk
  becomes a listing passed to `Open` in walk order. `CREATE_NEW` becomes the
  `NameExists` error. Closing file handles (`STable.close`, the loop in
  `MyDAO.close`) has no counterpart.
- Positional reads follow `FileChannel.read`. A negative position fails with
  `NegativePosition`. Bytes past the end of the file read as zeros, because
  the buffer is left as allocated.
- TableFormat.LengthAt: a length outside `[0, 2^31)` is rejected with
  `BadLength`. This approximates the `(int)` cast plus `ByteBuffer.allocate`,
  which would either throw or allocate a wrapped size.
- The clock `System.currentTimeMillis()` becomes the parameter `now`.
- MyDao.UpsertScan and MyDao.RemoveScan assume the clock is no earlier than
  every stored version of the key (`ClockAhead`). The store relies on this and
  does not check it. With a clock that went backwards, an older table version
  can still win after the write.
- The threshold `(long) (maxSize * 0.016)` is a floating-point computation.
  It is given as an integer `threshold`. The `System.out.println` of it is
  dropped.
- The library iterators (`Iterators.mergeSorted`, `Iters.collapseEquals`,
  `Iterators.filter`, `Iterators.transform`, `Record.of`) are not part of this
  model. They are modelled by contract as sequence functions and evaluated
  eagerly instead of lazily.
  - `mergeSorted` is a left fold of binary merges.
  - MergeScan.SortedUnique shows that any sorted arrangement gives the same
    result when no two cells tie, so the library's heap order does not
    matter. Ties cannot occur in a store that keeps the invariant.
- TableScan.IteratorFromTable: the `RuntimeException` that `next()` throws on
  a failed read becomes a failed `Result` for the whole scan.
- TableScan.FindIndex: the midpoint `(low + high) / 2` is computed without
  `int` overflow. In Java the sum wraps once it reaches 2^31, which needs a
  table of more than 2^30 rows. That case is not modelled.
- TableScan.TableScan uses the linear lower bound `ScanStart`, not the
  binary search. TableScan.FindIndex proves the two agree on sorted rows. On a
  corrupt, unsorted table they may pick different starting rows.
- FileNames.ParseInt accepts only ASCII digits with an optional sign.
  `Integer.parseInt` also accepts other Unicode digits, which the written
  names never contain.
- The generation counter is an unbounded integer. A `long` overflow after
  2^63 flushes is not modelled.
- `getVersionFromName` returns an `int` and fails past it, as modelled.
  FileNames.NameRoundTrip covers generations in the `int` range only.
- MyDao.FlushInv, MyDao.FlushTransparent and MyDao.CloseDurable require the
  memory table to fit the file format (`Fits`): the record area and the row
  count stay below 2^31. The writer narrows positions to `int`, and a larger
  image would hold wrapped offsets.
- MyDao.OpenInv requires the opened tables to be well-formed (readable, with
  strictly ascending keys) and of distinct generations. The code opens any
  `.data` file. Two files naming the same generation, or a corrupt file, break
  the scan guarantees, and the model does not describe what the store then
  returns.
- MyDao.Restarted stands for reopening the directory a store leaves behind.
  It keeps the store's tables rather than re-running `Open` over a listing of
  that directory.
- MyDao.Upsert and MyDao.Remove: a write whose threshold flush fails is
  modelled as a discarded call that returns only the error. In the code the
  memory table already holds the write when `flush()` throws, and the store
  keeps it with the old tables and generation. MyDao.FlushInv shows that on
  a store that keeps the invariant, with a memory table that fits the file
  format, the flush cannot fail.
- MemTable.Upsert, MemTable.Remove, TableFormat.EncodeRecord, MyDao.Upsert
  and MyDao.Remove take keys and values as the byte sequences they hold. The
  model assumes every `ByteBuffer` starts at position 0 and is not changed by
  the caller after the call. The code charges the counter and writes length
  headers from `limit()`, but copies and compares only the `remaining()`
  bytes. For a buffer with a non-zero position these disagree, and the
  records after it in a table file would be misread. `key.duplicate()` and
  `value.duplicate()` share the caller's array rather than copying it, so a
  later change to that array would change the stored key or value.
- `DebugUtils` (logging and heap printing) is not part of this model.

=== FILE: big_endian.dfy ===
/** Big-endian two's-complement integers as `ByteBuffer.putLong`/`putInt`
    write them and `getLong`/`getInt` read them back. */
module BigEndian {
  import opened Common

  function Pow256(n: nat): (r: nat)
    ensures r >= 1
  {
    if n == 0 then 1 else 256 * Pow256(n - 1)
  }

  lemma Pow256Widths()
    ensures Pow256(4) == 0x1_0000_0000
    ensures Pow256(8) == 0x1_0000_0000_0000_0000
  {
    assert Pow256(1) == 0x100;
    assert Pow256(2) == 0x1_0000;
    assert Pow256(3) == 0x100_0000;
    assert Pow256(4) == 0x1_0000_0000;
    assert Pow256(5) == 0x100_0000_0000;
    assert Pow256(6) == 0x1_0000_0000_0000;
    assert Pow256(7) == 0x100_0000_0000_0000;
  }

  /** The `n` low-order bytes of `x`, most significant first. */
  function EncodeNat(x: nat, n: nat): (r: seq<byte>)
    requires x < Pow256(n)
    ensures |r| == n
  {
    if n == 0 then []
    else
      assert x / 256 < Pow256(n - 1);
      EncodeNat(x / 256, n - 1) + [x % 256]
  }

  /** The unsigned number that a big-endian byte string denotes. */
  function DecodeNat(s: seq<byte>): (r: nat)
    ensures r < Pow256(|s|)
  {
    if |s| == 0 then 0
    else
      var hi := DecodeNat(s[..|s| - 1]);
      assert hi * 256 + s[|s| - 1] < Pow256(|s|) by {
        assert hi <= Pow256(|s| - 1) - 1;
        assert hi * 256 <= Pow256(|s| - 1) * 256 - 256;
      }
      hi * 256 + s[|s| - 1]
  }

  lemma {:induction false} DecodeEncodeNat(x: nat, n: nat)
    requires x < Pow256(n)
    ensures DecodeNat(EncodeNat(x, n)) == x
  {
    if n > 0 {
      var e := EncodeNat(x, n);
      assert e[..n - 1] == EncodeNat(x / 256, n - 1);
      DecodeEncodeNat(x / 256, n - 1);
    }
  }

  /** `putLong`: eight bytes, two's complement, big-endian. */
  function EncodeInt64(x: int64): (r: seq<byte>)
    ensures |r| == 8
  {
    Pow256Widths();
    EncodeNat(if x < 0 then x + 0x1_0000_0000_0000_0000 else x, 8)
  }

  /** `getLong` on eight bytes. */
  function DecodeInt64(s: seq<byte>): int64
    requires |s| == 8
  {
    Pow256Widths();
    var u := DecodeNat(s);
    if u >= 0x8000_0000_0000_0000 then u - 0x1_0000_0000_0000_0000 else u
  }

  /** `putInt`: four bytes, two's complement, big-endian. */
  function EncodeInt32(x: int32): (r: seq<byte>)
    ensures |r| == 4
  {
    Pow256Widths();
    EncodeNat(if x < 0 then x + 0x1_0000_0000 else x, 4)
  }

  /** `getInt` on four bytes. */
  function DecodeInt32(s: seq<byte>): int32
    requires |s| == 4
  {
    Pow256Widths();
    var u := DecodeNat(s);
    if u >= 0x8000_0000 then u - 0x1_0000_0000 else u
  }

  /** Every `long` survives a write followed by a read. */
  lemma Int64RoundTrip(x: int64)
    ensures DecodeInt64(EncodeInt64(x)) == x
  {
    Pow256Widths();
    DecodeEncodeNat(if x < 0 then x + 0x1_0000_0000_0000_0000 else x, 8);
  }

  /** Every `int` survives a write followed by a read. */
  lemma Int32RoundTrip(x: int32)
    ensures DecodeInt32(EncodeInt32(x)) == x
  {
    Pow256Widths();
    DecodeEncodeNat(if x < 0 then x + 0x1_0000_0000 else x, 4);
  }
}

=== FILE: cell_seqs.dfy ===
/** Sequences of cells as the tables hand them out: strictly ascending by key,
    each tagged with one generation, and their "from this key on" suffixes. */
module CellSeqs {
  import opened Common
  import opened KeyOrder
  import opened Versions

  predicate KeysAscending(s: seq<Cell>) {
    forall i, j | 0 <= i < j < |s| :: KeyLess(s[i].key, s[j].key)
  }

  /** Every cell of `s` carries generation `g`. */
  predicate Tagged(s: seq<Cell>, g: int) {
    forall i | 0 <= i < |s| :: s[i].generation == g
  }

  predicate AllWellFormed(s: seq<Cell>) {
    forall i | 0 <= i < |s| :: WellFormed(s[i].value)
  }

  /** The cells whose key is at or after `from`, in their original order. */
  function AtOrAfter(s: seq<Cell>, from: Key): (r: seq<Cell>)
    ensures forall c :: c in r <==> c in s && !KeyLess(c.key, from)
    ensures |r| <= |s|
    ensures KeysAscending(s) ==> KeysAscending(r)
  {
    if |s| == 0 then []
    else
      var rest := AtOrAfter(s[1..], from);
      assert KeysAscending(s) ==> forall c | c in rest :: KeyLess(s[0].key, c.key) by {
        if KeysAscending(s) {
          forall c | c in rest
            ensures KeyLess(s[0].key, c.key)
          {
            var j :| 0 <= j < |s[1..]| && s[1..][j] == c;
            assert s[j + 1] == c;
          }
        }
      }
      if KeyLess(s[0].key, from) then rest else [s[0]] + rest
  }

  /** A non-empty sequence holds its first element. */
  lemma HeadMember<T>(s: seq<T>)
    ensures |s| > 0 ==> s[0] in s
  {
  }

  /** Two key-ascending sequences holding the same cells are the same sequence. */
  lemma {:induction false} AscendingUnique(a: seq<Cell>, b: seq<Cell>)
    requires KeysAscending(a) && KeysAscending(b)
    requires forall c :: c in a <==> c in b
    ensures a == b
    decreases |a|
  {
    if |a| == 0 {
      HeadMember(b);
    } else {
      assert a[0] in a;
      assert |b| > 0;
      assert b[0] in b;
      var i :| 0 <= i < |a| && a[i] == b[0];
      var j :| 0 <= j < |b| && b[j] == a[0];
      if i > 0 && j > 0 {
        KeyLessTotal(a[0].key, b[0].key);
        assert false;
      } else if i > 0 {
        assert a[0] == b[0];
        KeyLessTotal(a[0].key, a[0].key);
        assert false;
      }
      assert a[0] == b[0];
      forall c
        ensures c in a[1..] <==> c in b[1..]
      {
        if c in a[1..] {
          var p :| 0 <= p < |a[1..]| && a[1..][p] == c;
          assert a[p + 1] == c;
          KeyLessTotal(a[0].key, c.key);
          assert c != b[0];
          assert c in b;
          var q :| 0 <= q < |b| && b[q] == c;
          assert q > 0;
          assert b[1..][q - 1] == c;
        }
        if c in b[1..] {
          var p :| 0 <= p < |b[1..]| && b[1..][p] == c;
          assert b[p + 1] == c;
          KeyLessTotal(b[0].key, c.key);
          assert c != a[0];
          assert c in a;
          var q :| 0 <= q < |a| && a[q] == c;
          assert q > 0;
          assert a[1..][q - 1] == c;
        }
      }
      AscendingUnique(a[1..], b[1..]);
      assert a == [a[0]] + a[1..] && b == [b[0]] + b[1..];
    }
  }

  /** In a key-ascending sequence, the suffix that starts at the lower bound of
      `from` is exactly the cells at or after `from`. */
  lemma SuffixIsAtOrAfter(s: seq<Cell>, from: Key, i: int)
    requires KeysAscending(s)
    requires 0 <= i <= |s|
    requires forall j | 0 <= j < i :: KeyLess(s[j].key, from)
    requires forall j | i <= j < |s| :: !KeyLess(s[j].key, from)
    ensures s[i..] == AtOrAfter(s, from)
  {
    var r := AtOrAfter(s, from);
    forall c
      ensures c in s[i..] <==> c in r
    {
      if c in s[i..] {
        var p :| 0 <= p < |s[i..]| && s[i..][p] == c;
        assert s[i + p] == c;
      }
      if c in r {
        var p :| 0 <= p < |s| && s[p] == c;
        assert p >= i;
        assert s[i..][p - i] == c;
      }
    }
    assert KeysAscending(s[i..]) by {
      forall p, q | 0 <= p < q < |s[i..]|
        ensures KeyLess(s[i..][p].key, s[i..][q].key)
      {
        assert s[i..][p] == s[i + p] && s[i..][q] == s[i + q];
      }
    }
    AscendingUnique(s[i..], r);
  }

  /** Starting from the least key keeps every cell. */
  lemma AtOrAfterEmptyKey(s: seq<Cell>)
    requires KeysAscending(s)
    ensures AtOrAfter(s, []) == s
  {
    forall j | 0 <= j < |s|
      ensures !KeyLess(s[j].key, [])
    {
      EmptyKeyLeast(s[j].key);
    }
    SuffixIsAtOrAfter(s, [], 0);
  }
}

=== FILE: common.dfy ===
/** Basic types shared by every part of the store: bytes, Java's fixed-width
    integers, byte buffers, and the Option/Result wrappers that stand in for
    `null` and for thrown exceptions. */
module Common {

  /** An unsigned byte as it sits in a file or a buffer. */
  type byte = b: int | 0 <= b < 256

  /** Java `long`. */
  type int64 = x: int | -0x8000_0000_0000_0000 <= x < 0x8000_0000_0000_0000

  /** Java `int`. */
  type int32 = x: int | -0x8000_0000 <= x < 0x8000_0000

  /** The contents of a `ByteBuffer`: a buffer is indexed by `int`, so it holds
      fewer than 2^31 bytes. */
  type Bytes = s: seq<byte> | |s| < 0x8000_0000

  /** Truncation of a mathematical integer to Java `int`, as the `(int)` cast
      of a `long` does. */
  function Wrap32(x: int): (r: int32)
    ensures -0x8000_0000 <= x < 0x8000_0000 ==> r == x
  {
    (x + 0x8000_0000) % 0x1_0000_0000 - 0x8000_0000
  }

  /** Java's `/` on `int` by a positive divisor: the quotient rounded toward
      zero, where Dafny's rounds down. */
  function JavaDiv(a: int, b: int): int
    requires b > 0
  {
    if a >= 0 || a % b == 0 then a / b else a / b + 1
  }

  datatype Option<+T> = None | Some(value: T)

  /** Why an operation failed: the exceptions the store can raise. */
  datatype Error =
    | NegativePosition   // FileChannel.read at a negative position
    | BadLength          // a length field that cannot be allocated as a buffer
    | NameExists         // CREATE_NEW on a file name that is already taken
    | NoSeparator        // file name without the generation prefix
    | NotANumber         // Integer.parseInt rejected the generation text

  datatype Result<+T> = Ok(value: T) | Err(error: Error) {

    predicate IsFailure() {
      Err?
    }

    function PropagateFailure<U>(): Result<U>
      requires Err?
    {
      Err(error)
    }

    function Extract(): T
      requires Ok?
    {
      value
    }
  }
}

=== FILE: dao.dfy ===
/** `MyDAO`: the store as a whole. Opening picks up the table files of a
    directory; writes go to the memory table, which is written out as a new
    table once its byte count passes the threshold; a scan merges every
    table and the memory table through the read pipeline. */
module MyDao {
  import opened Common
  import opened KeyOrder
  import opened Versions
  import opened CellSeqs
  import MemTable
  import opened TableFormat
  import opened TableScan
  import opened FileNames
  import opened MergeScan

  type MemoryTable = MemTable.MemoryTable

  /** A directory listing in the order the directory walk visits it: each
      file's name and contents. */
  type Listing = seq<(string, seq<byte>)>

  /** An open store: the flush threshold, the directory's files, the memory
      table, the generation the next table will get, and the open tables in
      the order they were found or written. */
  datatype Dao = Dao(threshold: int, dir: map<string, seq<byte>>, mem: MemoryTable, generation: int, tables: seq<STable>)

  // ------------------------------------------------------------------ open

  /** The directory a listing describes. */
  function DirOf(listing: Listing): (dir: map<string, seq<byte>>)
    ensures forall i | 0 <= i < |listing| :: listing[i].0 in dir
    ensures forall name | name in dir :: exists i | 0 <= i < |listing| :: listing[i].0 == name
  {
    if |listing| == 0 then map[]
    else
      var init := listing[..|listing| - 1];
      var last := listing[|listing| - 1];
      assert forall i | 0 <= i < |init| :: init[i] == listing[i];
      DirOf(init)[last.0 := last.1]
  }

  /** `new STable(file, getVersionFromName(name))`. */
  function OpenEntry(name: string, contents: seq<byte>): (r: Result<STable>)
    ensures r.Ok? ==> r.value.file == contents && VersionFromName(name) == Ok(r.value.generation)
  {
    var g :- VersionFromName(name);
    OpenTable(contents, g)
  }

  /** How `findTables` opens a listed file. */
  function EntryOpener(): (string, seq<byte>) -> Result<STable> {
    (name, contents) => OpenEntry(name, contents)
  }

  /** `findTables`: every listed file whose name ends with the extension,
      opened by `open` in walk order; the first one that fails to open fails
      the whole search. */
  function FindTablesWith(open: (string, seq<byte>) -> Result<STable>, listing: Listing): (r: Result<seq<STable>>)
    ensures r.Ok? <==>
      forall i | 0 <= i < |listing| && IsTableName(listing[i].0) :: open(listing[i].0, listing[i].1).Ok?
    ensures r.Ok? ==> forall t | t in r.value ::
      exists i | 0 <= i < |listing| :: IsTableName(listing[i].0) && open(listing[i].0, listing[i].1) == Ok(t)
    ensures r.Ok? ==> forall i | 0 <= i < |listing| && IsTableName(listing[i].0) ::
      open(listing[i].0, listing[i].1).value in r.value
  {
    if |listing| == 0 then Ok([])
    else
      var init := listing[..|listing| - 1];
      var name := listing[|listing| - 1].0;
      var contents := listing[|listing| - 1].1;
      assert forall i | 0 <= i < |init| :: init[i] == listing[i];
      var tables :- FindTablesWith(open, init);
      if IsTableName(name) then
        var t :- open(name, contents);
        Ok(tables + [t])
      else Ok(tables)
  }

  function FindTables(listing: Listing): Result<seq<STable>> {
    FindTablesWith(EntryOpener(), listing)
  }

  /** A file under the name of generation `g` opens, if at all, as a table
      of generation `g`. */
  lemma OpenNamed(g: int, contents: seq<byte>)
    requires EntryOpener()(FileName(g), contents).Ok?
    ensures EntryOpener()(FileName(g), contents).value.generation == g
  {
    NameRoundTrip(g);
  }

  /** `max(STable::compareTo)`: the table with the highest generation, the
      first such on a tie. */
  function NewestTable(tables: seq<STable>): (t: STable)
    requires |tables| > 0
    ensures t in tables
    ensures forall i | 0 <= i < |tables| :: tables[i].generation <= t.generation
  {
    if |tables| == 1 then tables[0]
    else
      var best := NewestTable(tables[..|tables| - 1]);
      var last := tables[|tables| - 1];
      assert forall i | 0 <= i < |tables| - 1 :: tables[..|tables| - 1][i] == tables[i];
      if CompareTables(last, best) > 0 then last else best
  }

  /** `new MyDAO(dir, maxSize)`: the tables found, the next generation one
      past the highest found (or 0), and an empty memory table of that
      generation. `threshold` is the flush threshold already derived from
      `maxSize`. */
  function Open(listing: Listing, threshold: int): (r: Result<Dao>)
    ensures r.Ok? <==> FindTables(listing).Ok?
    ensures r.Ok? ==> r.value.tables == FindTables(listing).value && r.value.dir == DirOf(listing)
    ensures r.Ok? ==> r.value.threshold == threshold && r.value.mem == MemTable.New(r.value.generation)
    ensures r.Ok? ==> forall t | t in r.value.tables :: t.generation < r.value.generation
    ensures r.Ok? && r.value.tables == [] ==> r.value.generation == 0
    ensures r.Ok? && r.value.tables != [] ==>
      exists t | t in r.value.tables :: t.generation == r.value.generation - 1
  {
    var tables :- FindTables(listing);
    var generation := if |tables| == 0 then 0 else NewestTable(tables).generation + 1;
    Ok(Dao(threshold, DirOf(listing), MemTable.New(generation), generation, tables))
  }

  // ------------------------------------------------------------- invariant

  predicate TablesWellFormed(tables: seq<STable>) {
    forall i {:trigger WellFormedTable(tables[i])} | 0 <= i < |tables| :: WellFormedTable(tables[i])
  }

  /** What the store keeps true between calls: a valid memory table of the
      current generation; well-formed tables of distinct, older generations;
      and no file yet under the name of the current or any later
      generation. */
  ghost predicate Inv(d: Dao) {
    && MemTable.Valid(d.mem)
    && d.mem.generation == d.generation
    && TablesWellFormed(d.tables)
    && (forall i | 0 <= i < |d.tables| :: d.tables[i].generation < d.generation)
    && (forall i, j | 0 <= i < j < |d.tables| :: d.tables[i].generation != d.tables[j].generation)
    && (forall g | g >= d.generation :: FileName(g) !in d.dir)
  }

  /** No listed name is that of a generation at or past `gen`, when every
      table found is older than `gen` and opening a file keeps the
      generation its name spells. */
  lemma NoFutureNames(open: (string, seq<byte>) -> Result<STable>, listing: Listing, tables: seq<STable>, gen: int)
    requires FindTablesWith(open, listing) == Ok(tables)
    requires forall t | t in tables :: t.generation < gen
    requires forall g, c | open(FileName(g), c).Ok? :: open(FileName(g), c).value.generation == g
    ensures forall g | g >= gen :: FileName(g) !in DirOf(listing)
  {
    forall g | g >= gen
      ensures FileName(g) !in DirOf(listing)
    {
      forall i | 0 <= i < |listing|
        ensures listing[i].0 != FileName(g)
      {
        NameRoundTrip(g);
        if IsTableName(listing[i].0) {
          assert open(listing[i].0, listing[i].1).value in tables;
        }
      }
    }
  }

  /** A store with an empty memory table, well-formed tables of distinct
      generations found in `listing`, and a generation past all of them
      keeps the invariant. */
  lemma FoundInv(d: Dao, listing: Listing)
    requires FindTables(listing) == Ok(d.tables) && d.dir == DirOf(listing)
    requires d.mem == MemTable.New(d.generation)
    requires TablesWellFormed(d.tables)
    requires forall i, j | 0 <= i < j < |d.tables| :: d.tables[i].generation != d.tables[j].generation
    requires forall t | t in d.tables :: t.generation < d.generation
    ensures Inv(d)
  {
    forall i | 0 <= i < |d.tables|
      ensures d.tables[i].generation < d.generation
    {
      assert d.tables[i] in d.tables;
    }
    forall g, c | EntryOpener()(FileName(g), c).Ok?
      ensures EntryOpener()(FileName(g), c).value.generation == g
    {
      OpenNamed(g, c);
    }
    NoFutureNames(EntryOpener(), listing, d.tables, d.generation);
  }

  /** A directory whose table files are well-formed and name distinct
      generations opens into a store that keeps the invariant. */
  lemma OpenInv(listing: Listing, threshold: int)
    requires Open(listing, threshold).Ok?
    requires TablesWellFormed(Open(listing, threshold).value.tables)
    requires forall i, j | 0 <= i < j < |Open(listing, threshold).value.tables| ::
      Open(listing, threshold).value.tables[i].generation != Open(listing, threshold).value.tables[j].generation
    ensures Inv(Open(listing, threshold).value)
  {
    FoundInv(Open(listing, threshold).value, listing);
  }

  // ------------------------------------------------------------------ scan

  /** `iteratorFromTable(from)` as a function of the table. */
  function Scanner(from: Key): STable -> Result<seq<Cell>> {
    t => TableScan.TableScan(t, from)
  }

  /** The scans of all tables, in table order; the first that fails fails
      them all. */
  function TableScans(scan: STable -> Result<seq<Cell>>, tables: seq<STable>): (r: Result<seq<seq<Cell>>>)
    ensures r.Ok? <==> forall i | 0 <= i < |tables| :: scan(tables[i]).Ok?
    ensures r.Ok? ==> |r.value| == |tables|
    ensures r.Ok? ==> forall i | 0 <= i < |tables| :: r.value[i] == scan(tables[i]).value
  {
    if |tables| == 0 then Ok([])
    else
      var init := tables[..|tables| - 1];
      assert forall i | 0 <= i < |init| :: init[i] == tables[i];
      var scans :- TableScans(scan, init);
      var last :- scan(tables[|tables| - 1]);
      Ok(scans + [last])
  }

  /** `iterator(from)`: every table's cells from `from` on, then the memory
      table's, through the read pipeline. */
  function Scan(d: Dao, from: Key): Result<seq<Record>> {
    var scans :- TableScans(Scanner(from), d.tables);
    Ok(Pipeline(scans + [MemTable.Iterator(d.mem, from)]))
  }

  /** A well-formed table's rows. */
  function Rows(t: STable): seq<Cell>
    requires WellFormedTable(t)
  {
    TableCells(t).value
  }

  /** Each table's rows, in table order. */
  function TableContents(tables: seq<STable>): (r: seq<seq<Cell>>)
    requires TablesWellFormed(tables)
    ensures |r| == |tables|
    ensures forall i | 0 <= i < |tables| :: r[i] == Rows(tables[i])
  {
    seq(|tables|, i requires 0 <= i < |tables| && WellFormedTable(tables[i]) => Rows(tables[i]))
  }

  /** Every version the store holds: each table's rows, then the memory
      table's entries. */
  function Contents(d: Dao): (r: seq<seq<Cell>>)
    requires TablesWellFormed(d.tables)
    ensures |r| == |d.tables| + 1
    ensures forall i | 0 <= i < |d.tables| :: r[i] == Rows(d.tables[i])
    ensures r[|d.tables|] == MemTable.Entries(d.mem)
  {
    TableContents(d.tables) + [MemTable.Entries(d.mem)]
  }

  /** The generation of each source of `Contents(d)`. */
  function Generations(d: Dao): (r: seq<int>)
    ensures |r| == |d.tables| + 1
  {
    seq(|d.tables|, i requires 0 <= i < |d.tables| => d.tables[i].generation) + [d.generation]
  }

  ghost function Held(d: Dao): multiset<Cell>
    requires TablesWellFormed(d.tables)
  {
    Union(Contents(d))
  }

  /** Scans that give each table's cells from `from` on, followed by the
      last source's, are the sources cut at `from`. */
  lemma ScansOfCells(scan: STable -> Result<seq<Cell>>, tables: seq<STable>, cs: seq<seq<Cell>>, from: Key)
    requires |cs| == |tables| + 1
    requires forall i | 0 <= i < |tables| :: scan(tables[i]) == Ok(AtOrAfter(cs[i], from))
    ensures TableScans(scan, tables).Ok?
    ensures TableScans(scan, tables).value + [AtOrAfter(cs[|tables|], from)] == Filtered(cs, from)
  {
    var scans := TableScans(scan, tables).value;
    var fs := Filtered(cs, from);
    forall i | 0 <= i < |fs|
      ensures (scans + [AtOrAfter(cs[|tables|], from)])[i] == fs[i]
    {
      if i < |tables| {
        assert scans[i] == scan(tables[i]).value;
      }
    }
  }

  /** Under the invariant every table scan succeeds, and the sources the
      read pipeline merges are the store's contents cut at `from`. */
  lemma ScanSources(d: Dao, from: Key)
    requires Inv(d)
    ensures TableScans(Scanner(from), d.tables).Ok?
    ensures TableScans(Scanner(from), d.tables).value + [MemTable.Iterator(d.mem, from)] == Filtered(Contents(d), from)
  {
    var cs := Contents(d);
    forall i | 0 <= i < |d.tables|
      ensures Scanner(from)(d.tables[i]) == Ok(AtOrAfter(cs[i], from))
    {
      TableScanSpec(d.tables[i], from);
    }
    ScansOfCells(Scanner(from), d.tables, cs, from);
  }

  /** Under the invariant each source holds ascending keys of a single
      generation, and the generations differ. */
  lemma ContentsFacts(d: Dao)
    requires Inv(d)
    ensures forall i | 0 <= i < |Contents(d)| ::
      KeysAscending(Contents(d)[i]) && Tagged(Contents(d)[i], Generations(d)[i])
    ensures forall i, j | 0 <= i < j < |Generations(d)| :: Generations(d)[i] != Generations(d)[j]
  {
    var cs, gens := Contents(d), Generations(d);
    forall i | 0 <= i < |cs|
      ensures KeysAscending(cs[i]) && Tagged(cs[i], gens[i])
    {
      if i < |d.tables| {
        assert WellFormedTable(d.tables[i]);
        TableCellsTagged(d.tables[i]);
      }
    }
  }

  /** Under the invariant no two versions share key and generation. */
  lemma OneVersion(d: Dao)
    requires Inv(d)
    ensures OneVersionPerSource(Held(d))
  {
    ContentsFacts(d);
    DistinctSources(Contents(d), Generations(d));
  }

  /** A scan of a store that keeps the invariant succeeds and shows, in
      strictly ascending key order, exactly the live newest versions of the
      keys at or after `from`. */
  lemma ScanSpec(d: Dao, from: Key)
    requires Inv(d)
    ensures Scan(d, from).Ok?
    ensures RecordsAscending(Scan(d, from).value)
    ensures forall r :: r in Scan(d, from).value <==> Shows(Held(d), from, r)
  {
    ScanSources(d, from);
    OneVersion(d);
    ContentsFacts(d);
    ScanOfVersions(Contents(d), from);
  }

  // ------------------------------------------------------------------ flush

  /** `flush()`: the memory table written as the table file of its
      generation (refused when that file exists), opened and added to the
      tables; then an empty memory table of the next generation. */
  function Flush(d: Dao): (r: Result<Dao>)
    requires MemTable.ValuesWellFormed(d.mem)
    ensures r.Err? <==> FileName(d.mem.generation) in d.dir
    ensures r.Ok? ==> r.value.generation == d.generation + 1 && r.value.mem == MemTable.New(d.generation + 1)
    ensures r.Ok? ==> r.value.threshold == d.threshold
    ensures r.Ok? ==> r.value.dir == d.dir[FileName(d.mem.generation) := TableImage(MemTable.Entries(d.mem))]
    ensures r.Ok? ==> |r.value.tables| == |d.tables| + 1 && r.value.tables[..|d.tables|] == d.tables
  {
    var name := FileName(d.mem.generation);
    if name in d.dir then Err(NameExists)
    else
      var cells := MemTable.Entries(d.mem);
      MemTable.EntriesWellFormed(d.mem);
      var image := TableImage(cells);
      match OpenTable(image, d.mem.generation)
      case Err(e) => Err(e)
      case Ok(t) =>
        var next := d.generation + 1;
        Ok(Dao(d.threshold, d.dir[name := image], MemTable.New(next), next, d.tables + [t]))
  }

  /** The memory table fits the file format: its image stays within the
      `int` positions the writer records. */
  predicate Fits(m: MemoryTable) {
    MemTable.ValuesWellFormed(m) && FitsFormat(MemTable.Entries(m))
  }

  /** The table a flush adds is the memory table's entries, well-formed. */
  lemma FlushedTable(d: Dao)
    requires Inv(d) && Fits(d.mem)
    ensures Flush(d).Ok?
    ensures Flush(d).value.tables == d.tables + [STable(TableImage(MemTable.Entries(d.mem)), d.generation, |MemTable.Entries(d.mem)|)]
    ensures TableCells(Flush(d).value.tables[|d.tables|]) == Ok(MemTable.Entries(d.mem))
    ensures WellFormedTable(Flush(d).value.tables[|d.tables|])
  {
    var cells := MemTable.Entries(d.mem);
    WrittenTable(cells, d.generation);
  }

  /** A store grown by one well-formed table of the current generation, with
      only that generation's file added and an empty memory table of the
      next generation, keeps the invariant. */
  lemma GrownInv(d: Dao, d': Dao)
    requires Inv(d)
    requires d'.generation == d.generation + 1 && d'.mem == MemTable.New(d.generation + 1)
    requires forall name | name in d'.dir :: name in d.dir || name == FileName(d.generation)
    requires |d'.tables| == |d.tables| + 1 && d'.tables[..|d.tables|] == d.tables
    requires WellFormedTable(d'.tables[|d.tables|]) && d'.tables[|d.tables|].generation == d.generation
    ensures Inv(d')
  {
    forall i | 0 <= i < |d.tables|
      ensures d'.tables[i] == d.tables[i]
    {
      assert d'.tables[..|d.tables|][i] == d.tables[i];
    }
    forall g | g >= d'.generation
      ensures FileName(g) !in d'.dir
    {
      if FileName(g) == FileName(d.generation) {
        FileNameInjective(g, d.generation);
      }
    }
  }

  /** Flushing keeps the invariant. */
  lemma FlushInv(d: Dao)
    requires Inv(d) && Fits(d.mem)
    ensures Flush(d).Ok? && Inv(Flush(d).value)
  {
    FlushedTable(d);
    GrownInv(d, Flush(d).value);
  }

  /** Merging a further empty source changes nothing. */
  lemma PipelineEmptyLast(sources: seq<seq<Cell>>)
    ensures Pipeline(sources + [[]]) == Pipeline(sources)
  {
    assert (sources + [[]])[..|sources|] == sources;
  }

  /** Flushing is invisible to scans: the new table holds what the memory
      table held, and the new memory table is empty. */
  lemma FlushTransparent(d: Dao, from: Key)
    requires Inv(d) && Fits(d.mem)
    ensures Flush(d).Ok?
    ensures Scan(Flush(d).value, from) == Scan(d, from)
  {
    FlushedTable(d);
    FlushInv(d);
    var d' := Flush(d).value;
    var t := d'.tables[|d.tables|];
    TableScanSpec(t, from);
    ScanSources(d, from);
    var scans := TableScans(Scanner(from), d.tables).value;
    var last := MemTable.Iterator(d.mem, from);
    assert Scanner(from)(t) == Ok(last);
    assert TableScans(Scanner(from), d'.tables) == Ok(scans + [last]) by {
      assert d'.tables[..|d.tables|] == d.tables;
    }
    MemTable.EntriesEmpty(d'.mem, from);
    PipelineEmptyLast(scans + [last]);
  }

  // ----------------------------------------------------------------- writes

  /** The flush rule `upsert` and `remove` share: flush once the memory
      table's byte count exceeds the threshold. */
  function Settle(d: Dao): (r: Result<Dao>)
    requires MemTable.ValuesWellFormed(d.mem)
    ensures r.Err? <==> d.mem.sizeInBytes > d.threshold && FileName(d.mem.generation) in d.dir
    ensures r.Ok? ==> r.value.threshold == d.threshold
    ensures r.Ok? ==> (r.value.generation == d.generation <==> d.mem.sizeInBytes <= d.threshold)
    ensures r.Ok? && r.value.generation == d.generation ==> r.value == d
    ensures r.Ok? && d.threshold >= 0 ==> r.value.mem.sizeInBytes <= d.threshold
    ensures r.Ok? && r.value.generation != d.generation ==>
      r.value.mem.entries == map[] && |r.value.tables| == |d.tables| + 1 && r.value.tables[..|d.tables|] == d.tables
  {
    if d.mem.sizeInBytes > d.threshold then Flush(d) else Ok(d)
  }

  /** `upsert(key, value)`: the write goes to the memory table, stamped
      `now`; then the flush rule. */
  function Upsert(d: Dao, key: Key, value: Bytes, now: int64): (r: Result<Dao>)
    requires MemTable.ValuesWellFormed(d.mem)
    ensures r.Ok? && r.value.generation == d.generation ==>
      r.value.tables == d.tables && r.value.dir == d.dir &&
      key in r.value.mem.entries && r.value.mem.entries[key] == Live(value, now)
    ensures r.Ok? && d.threshold >= 0 ==> r.value.mem.sizeInBytes <= d.threshold
  {
    Settle(d.(mem := MemTable.Upsert(d.mem, key, value, now)))
  }

  /** `remove(key)`: a tombstone goes to the memory table, stamped `now`;
      then the flush rule. */
  function Remove(d: Dao, key: Key, now: int64): (r: Result<Dao>)
    requires MemTable.ValuesWellFormed(d.mem)
    ensures r.Ok? && r.value.generation == d.generation ==>
      r.value.tables == d.tables && r.value.dir == d.dir &&
      key in r.value.mem.entries && r.value.mem.entries[key] == Tombstone(now)
    ensures r.Ok? && d.threshold >= 0 ==> r.value.mem.sizeInBytes <= d.threshold
  {
    Settle(d.(mem := MemTable.Remove(d.mem, key, now)))
  }

  /** The clock reading `now` is no earlier than any stored version of
      `key`: what the store relies on for the newest write to win. */
  ghost predicate ClockAhead(d: Dao, key: Key, now: int64)
    requires TablesWellFormed(d.tables)
  {
    forall c | c in Held(d) && c.key == key :: c.value.timestamp <= now
  }

  /** The versions held are the tables' rows and the memory table's
      entries. */
  lemma HeldSplit(d: Dao)
    requires TablesWellFormed(d.tables)
    ensures Held(d) == Union(TableContents(d.tables)) + multiset(MemTable.Entries(d.mem))
  {
    assert Contents(d)[..|d.tables|] == TableContents(d.tables);
  }

  /** Under the invariant every version in a table is older than the
      memory table. */
  lemma TablesOlder(d: Dao)
    requires Inv(d)
    ensures forall x | x in Union(TableContents(d.tables)) :: x.generation < d.generation
  {
    var ts := TableContents(d.tables);
    ContentsFacts(d);
    forall x | x in Union(ts)
      ensures x.generation < d.generation
    {
      UnionMember(ts, x);
      var i :| 0 <= i < |ts| && x in ts[i];
      var j :| 0 <= j < |ts[i]| && ts[i][j] == x;
      assert Contents(d)[i] == ts[i];
      assert Tagged(Contents(d)[i], Generations(d)[i]);
    }
  }

  /** Replacing the memory table by a valid one of the same generation keeps
      the invariant. */
  lemma WriteInv(d: Dao, m: MemoryTable)
    requires Inv(d) && MemTable.Valid(m) && m.generation == d.generation
    ensures Inv(d.(mem := m))
  {
  }

  /** The versions of `key` held after its memory-table entry is
      overwritten with `v`: the new version, and older versions in the
      tables. */
  lemma HeldAfterWrite(d: Dao, m: MemoryTable, key: Key, v: Value)
    requires Inv(d) && ClockAhead(d, key, v.timestamp)
    requires m.generation == d.generation && MemTable.Valid(m)
    requires key in m.entries && m.entries[key] == v
    ensures Inv(d.(mem := m))
    ensures Cell(key, v, d.generation) in Held(d.(mem := m))
    ensures forall x | x in Held(d.(mem := m)) && x.key == key ::
      x == Cell(key, v, d.generation) || (x.value.timestamp <= v.timestamp && x.generation < d.generation)
  {
    WriteInv(d, m);
    HeldSplit(d);
    HeldSplit(d.(mem := m));
    TablesOlder(d);
  }

  /** Overwriting the memory-table entry of `key` leaves the versions of
      every other key as they were. */
  lemma HeldOthers(d: Dao, m: MemoryTable, key: Key)
    requires TablesWellFormed(d.tables) && m.generation == d.mem.generation
    requires forall k | k != key :: (k in m.entries <==> k in d.mem.entries)
    requires forall k | k != key && k in d.mem.entries :: m.entries[k] == d.mem.entries[k]
    ensures forall x: Cell | x.key != key :: x in Held(d.(mem := m)) <==> x in Held(d)
  {
    HeldSplit(d);
    HeldSplit(d.(mem := m));
  }

  /** After a write of `w` that replaces every other version of its key
      but older ones, the key shows `w` (when live and at or after `from`)
      and every other key shows as before. */
  lemma ShowsAfterWrite(u: multiset<Cell>, u': multiset<Cell>, w: Cell, from: Key, r: Record)
    requires OneVersionPerSource(u') && w in u'
    requires forall x | x in u' && x.key == w.key ::
      x == w || (x.value.timestamp <= w.value.timestamp && x.generation < w.generation)
    requires forall x: Cell | x.key != w.key :: x in u' <==> x in u
    ensures Shows(u', from, r) <==>
      if r.key == w.key then !w.value.isTombstone && !KeyLess(w.key, from) && r == RecordOf(w)
      else Shows(u, from, r)
  {
    if r.key == w.key {
      forall x | x in u' && x.key == w.key
        ensures CellLe(w, x)
      {
        if x == w {
          CellLeTotal(w, w);
        } else if x.value.timestamp == w.value.timestamp {
          CellOrderByGeneration(w, x);
        } else {
          CellOrderByTimestamp(w, x);
        }
      }
      ShowsNewest(u', from, w, r);
    } else {
      forall v: Cell | v.key == r.key
        ensures Newest(v, u') <==> Newest(v, u)
      {
      }
      if Shows(u', from, r) {
        var v :| Newest(v, u') && !v.value.isTombstone && !KeyLess(v.key, from) && r == RecordOf(v);
        assert Newest(v, u);
      }
      if Shows(u, from, r) {
        var v :| Newest(v, u) && !v.value.isTombstone && !KeyLess(v.key, from) && r == RecordOf(v);
        assert Newest(v, u');
      }
    }
  }

  /** A scan after `key`'s memory-table entry is overwritten with `v`
      shows `v` for `key` (when live and at or after `from`) and, for every
      other key, what it showed before. */
  lemma ScanAfterWrite(d: Dao, m: MemoryTable, key: Key, v: Value, from: Key)
    requires Inv(d) && ClockAhead(d, key, v.timestamp)
    requires m.generation == d.generation && MemTable.Valid(m)
    requires key in m.entries && m.entries[key] == v
    requires forall k | k != key :: (k in m.entries <==> k in d.mem.entries)
    requires forall k | k != key && k in d.mem.entries :: m.entries[k] == d.mem.entries[k]
    ensures Inv(d.(mem := m))
    ensures Scan(d, from).Ok? && Scan(d.(mem := m), from).Ok?
    ensures forall r :: r in Scan(d.(mem := m), from).value <==>
      if r.key == key then !v.isTombstone && !KeyLess(key, from) && r == RecordOf(Cell(key, v, d.generation))
      else r in Scan(d, from).value
  {
    var d1 := d.(mem := m);
    HeldAfterWrite(d, m, key, v);
    HeldOthers(d, m, key);
    ScanSpec(d, from);
    ScanSpec(d1, from);
    OneVersion(d1);
    forall r
      ensures Shows(Held(d1), from, r) <==>
        if r.key == key then !v.isTombstone && !KeyLess(key, from) && r == RecordOf(Cell(key, v, d.generation))
        else Shows(Held(d), from, r)
    {
      ShowsAfterWrite(Held(d), Held(d1), Cell(key, v, d.generation), from, r);
    }
  }

  /** With a clock that runs ahead of the stored versions of `key`, an
      upsert keeps the invariant, and a scan afterwards shows `value` for
      `key` (from `from` on) and every other key as before. A flush needs
      the memory table to fit the file format. */
  lemma UpsertScan(d: Dao, key: Key, value: Bytes, now: int64, from: Key)
    requires Inv(d) && ClockAhead(d, key, now)
    requires MemTable.Upsert(d.mem, key, value, now).sizeInBytes > d.threshold ==>
      Fits(MemTable.Upsert(d.mem, key, value, now))
    ensures Upsert(d, key, value, now).Ok? && Inv(Upsert(d, key, value, now).value)
    ensures Scan(d, from).Ok? && Scan(Upsert(d, key, value, now).value, from).Ok?
    ensures forall r :: r in Scan(Upsert(d, key, value, now).value, from).value <==>
      if r.key == key then !KeyLess(key, from) && r == Record(key, value)
      else r in Scan(d, from).value
  {
    var m := MemTable.Upsert(d.mem, key, value, now);
    MemTable.UpsertPreservesValid(d.mem, key, value, now);
    ScanAfterWrite(d, m, key, Live(value, now), from);
    var d1 := d.(mem := m);
    if m.sizeInBytes > d.threshold {
      FlushInv(d1);
      FlushTransparent(d1, from);
    }
  }

  /** With a clock that runs ahead of the stored versions of `key`, a
      remove keeps the invariant, and a scan afterwards shows nothing for
      `key` and every other key as before. */
  lemma RemoveScan(d: Dao, key: Key, now: int64, from: Key)
    requires Inv(d) && ClockAhead(d, key, now)
    requires MemTable.Remove(d.mem, key, now).sizeInBytes > d.threshold ==>
      Fits(MemTable.Remove(d.mem, key, now))
    ensures Remove(d, key, now).Ok? && Inv(Remove(d, key, now).value)
    ensures Scan(d, from).Ok? && Scan(Remove(d, key, now).value, from).Ok?
    ensures forall r :: r in Scan(Remove(d, key, now).value, from).value <==>
      r.key != key && r in Scan(d, from).value
  {
    var m := MemTable.Remove(d.mem, key, now);
    MemTable.RemovePreservesValid(d.mem, key, now);
    ScanAfterWrite(d, m, key, Tombstone(now), from);
    var d1 := d.(mem := m);
    if m.sizeInBytes > d.threshold {
      FlushInv(d1);
      FlushTransparent(d1, from);
    }
  }

  // ------------------------------------------------------------------ close

  /** The store as a later `new MyDAO` over the same directory finds it:
      the same tables, and an empty memory table. */
  function Restarted(d: Dao): (r: Dao)
    ensures r.tables == d.tables && r.dir == d.dir && r.generation == d.generation
    ensures r.mem.entries == map[]
  {
    d.(mem := MemTable.New(d.generation))
  }

  /** `close()` as written: the memory table is flushed only when its byte
      count is positive. */
  function CloseAsWritten(d: Dao): (r: Result<Dao>)
    requires MemTable.ValuesWellFormed(d.mem)
    ensures d.mem.sizeInBytes <= 0 ==> r == Ok(d)
    ensures d.mem.sizeInBytes > 0 ==> r == Flush(d)
  {
    if d.mem.sizeInBytes > 0 then Flush(d) else Ok(d)
  }

  /** `close()` as intended: the memory table is flushed whenever it holds
      an entry. */
  function Close(d: Dao): (r: Result<Dao>)
    requires MemTable.ValuesWellFormed(d.mem)
    ensures r.Ok? ==> r.value.mem.entries == map[]
    ensures r.Err? <==> d.mem.entries != map[] && FileName(d.mem.generation) in d.dir
  {
    if d.mem.entries != map[] then Flush(d) else Ok(d)
  }

  /** A store holding only an empty value under the empty key: its byte
      count is zero. */
  function EmptyKeyStore(): (d: Dao)
    ensures Inv(d)
  {
    var m := MemTable.Upsert(MemTable.New(0), [], [], 0);
    MemTable.UpsertPreservesValid(MemTable.New(0), [], [], 0);
    Dao(0, map[], m, 0, [])
  }

  /** Closing as written loses that store's only record: before the close
      a scan shows it, after a restart it is gone. */
  lemma CloseAsWrittenLosesData()
    ensures CloseAsWritten(EmptyKeyStore()) == Ok(EmptyKeyStore())
    ensures Scan(EmptyKeyStore(), []) == Ok([Record([], [])])
    ensures Scan(Restarted(CloseAsWritten(EmptyKeyStore()).value), []) == Ok([])
  {
    var d := EmptyKeyStore();
    var w := Cell([], Live([], 0), 0);
    assert MemTable.Entries(d.mem) == [w] by {
      var e := MemTable.Entries(d.mem);
      assert w in e;
      assert forall c | c in e :: c == w;
    }
    assert Contents(d) == [[w]];
    assert MergeAll([[w]]) == [w] by {
      assert [[w]][..0] == [];
    }
    assert Collapse([w]) == [w] by {
      assert SkipKey([w][1..], w.key) == [];
    }
    assert DropTombstones([w]) == [w] by {
      assert DropTombstones([w][1..]) == [];
    }
    assert ToRecords([w]) == [Record([], [])];
    var d' := Restarted(d);
    assert MemTable.Entries(d'.mem) == [];
    assert Pipeline([[]]) == [];
  }

  /** The intended close is durable: it keeps the invariant, and a restart
      after it shows what the store showed before. */
  lemma CloseDurable(d: Dao, from: Key)
    requires Inv(d) && Fits(d.mem)
    ensures Close(d).Ok? && Inv(Close(d).value)
    ensures Scan(Restarted(Close(d).value), from) == Scan(d, from)
  {
    if d.mem.entries != map[] {
      FlushInv(d);
      FlushTransparent(d, from);
      assert Restarted(Flush(d).value) == Flush(d).value;
    } else {
      assert Restarted(d) == d;
    }
  }
}

=== FILE: file_names.dfy ===
/** Table file names: the name `writeTable` gives a generation's file, and
    `getVersionFromName`, which recovers the generation from a name by
    splitting on the prefix, deleting the extension and parsing an `int`. */
module FileNames {
  import opened Common

  const Prefix: string := "LSM-DB-GEN-"
  const Extension: string := ".data"

  // --------------------------------------------------------- decimal text

  predicate IsDigit(c: char) {
    '0' <= c <= '9'
  }

  predicate AllDigits(s: string) {
    forall i | 0 <= i < |s| :: IsDigit(s[i])
  }

  function DigitChar(d: nat): (c: char)
    requires d < 10
    ensures IsDigit(c)
  {
    (('0' as int) + d) as char
  }

  /** The decimal digits of `n`, most significant first, without leading
      zeros. */
  function Digits(n: nat): (s: string)
    ensures |s| > 0 && AllDigits(s)
  {
    if n < 10 then [DigitChar(n)] else Digits(n / 10) + [DigitChar(n % 10)]
  }

  /** `Long.toString(x)`: a minus sign for negatives, then the digits. */
  function Decimal(x: int): (s: string)
    ensures |s| > 0
    ensures forall i | 0 <= i < |s| :: IsDigit(s[i]) || s[i] == '-'
  {
    if x < 0 then "-" + Digits(-x) else Digits(x)
  }

  /** The number a string of decimal digits denotes. */
  function DigitsValue(s: string): nat
    requires AllDigits(s)
  {
    if |s| == 0 then 0
    else DigitsValue(s[..|s| - 1]) * 10 + ((s[|s| - 1] as int) - ('0' as int))
  }

  lemma {:induction false} DigitsValueOfDigits(n: nat)
    ensures DigitsValue(Digits(n)) == n
  {
    if n >= 10 {
      var s := Digits(n);
      assert s[..|s| - 1] == Digits(n / 10);
      DigitsValueOfDigits(n / 10);
    }
  }

  /** `Integer.parseInt(s)`: an optional sign, then one or more decimal
      digits, denoting a value that fits in an `int`. */
  function ParseInt(s: string): (r: Result<int32>)
    ensures r.Ok? ==> |s| > 0
    ensures r.Ok? && AllDigits(s) ==> r.value == DigitsValue(s)
  {
    if |s| == 0 then Err(NotANumber)
    else
      var negative := s[0] == '-';
      var body := if s[0] == '-' || s[0] == '+' then s[1..] else s;
      if |body| == 0 || !AllDigits(body) then Err(NotANumber)
      else
        var v: int := DigitsValue(body);
        var x := if negative then -v else v;
        if -0x8000_0000 <= x < 0x8000_0000 then Ok(x) else Err(NotANumber)
  }

  /** Parsing undoes printing for every number that fits in an `int`, and
      refuses every other. */
  lemma ParseDecimal(x: int)
    ensures ParseInt(Decimal(x)) == if -0x8000_0000 <= x < 0x8000_0000 then Ok(x) else Err(NotANumber)
  {
    if x < 0 {
      ParseNegative(-x);
    } else {
      ParseNonNegative(x);
    }
  }

  lemma ParseNonNegative(n: nat)
    ensures ParseInt(Digits(n)) == if n < 0x8000_0000 then Ok(n) else Err(NotANumber)
  {
    var d := Digits(n);
    assert IsDigit(d[0]);
    DigitsValueOfDigits(n);
  }

  lemma ParseNegative(n: nat)
    requires n > 0
    ensures ParseInt("-" + Digits(n)) == if n <= 0x8000_0000 then Ok(-(n as int)) else Err(NotANumber)
  {
    var d := Digits(n);
    assert ("-" + d)[1..] == d;
    DigitsValueOfDigits(n);
  }

  /** A printed number starts with a minus sign exactly when it is negative. */
  lemma DecimalSign(x: int)
    ensures Decimal(x)[0] == '-' <==> x < 0
  {
    if x >= 0 {
      assert IsDigit(Digits(x)[0]);
    }
  }

  /** Different numbers print differently. */
  lemma DecimalInjective(a: int, b: int)
    requires Decimal(a) == Decimal(b)
    ensures a == b
  {
    var d := Decimal(a);
    DecimalSign(a);
    DecimalSign(b);
    if a < 0 {
      assert d[1..] == Digits(-a) && d[1..] == Digits(-b);
      DigitsValueOfDigits(-a);
      DigitsValueOfDigits(-b);
    } else {
      DigitsValueOfDigits(a);
      DigitsValueOfDigits(b);
    }
  }

  // ------------------------------------------------------------- matching

  /** `pat` occurs in `s` starting at `i`. */
  predicate OccursAt(s: string, pat: string, i: int) {
    0 <= i && i + |pat| <= |s| && s[i..i + |pat|] == pat
  }

  /** The first occurrence of `pat` in `s` at or after `i`. */
  function IndexFrom(s: string, pat: string, i: nat): (r: Option<nat>)
    decreases |s| - i
    ensures r.Some? ==> i <= r.value && OccursAt(s, pat, r.value)
    ensures r.Some? ==> forall j | i <= j < r.value :: !OccursAt(s, pat, j)
    ensures r.None? ==> forall j | i <= j :: !OccursAt(s, pat, j)
  {
    if i + |pat| > |s| then None
    else if s[i..i + |pat|] == pat then Some(i)
    else IndexFrom(s, pat, i + 1)
  }

  /** An occurrence in a prefix is an occurrence in the whole. */
  lemma OccursInPrefix(s: string, pat: string, n: int, k: int)
    requires 0 <= n <= |s|
    ensures OccursAt(s[..n], pat, k) ==> OccursAt(s, pat, k)
  {
    if OccursAt(s[..n], pat, k) {
      assert s[..n][k..k + |pat|] == s[k..k + |pat|];
    }
  }

  /** `Iterables.get(Splitter.on(sep).split(s), 1)`: the text between the
      first occurrence of `sep` and the next one, or the end. A name with no
      occurrence has a single piece, and asking for the second fails. */
  function SecondPiece(s: string, sep: string): (r: Result<string>)
    requires |sep| > 0
    ensures r.Err? <==> forall j :: !OccursAt(s, sep, j)
    ensures r.Ok? ==> forall j :: !OccursAt(r.value, sep, j)
  {
    match IndexFrom(s, sep, 0)
    case None => Err(NoSeparator)
    case Some(i) =>
      var rest := s[i + |sep|..];
      match IndexFrom(rest, sep, 0)
      case None => Ok(rest)
      case Some(j) =>
        assert forall k :: !OccursAt(rest[..j], sep, k) by {
          forall k
            ensures !OccursAt(rest[..j], sep, k)
          {
            OccursInPrefix(rest, sep, j, k);
          }
        }
        Ok(rest[..j])
  }

  /** `s.replaceAll(Pattern.quote(pat), "")`: every occurrence of `pat`,
      found left to right without overlap, deleted. */
  function RemoveAll(s: string, pat: string): (r: string)
    requires |pat| > 0
    ensures |r| <= |s|
  {
    if |s| == 0 then []
    else if OccursAt(s, pat, 0) then RemoveAll(s[|pat|..], pat)
    else [s[0]] + RemoveAll(s[1..], pat)
  }

  // ---------------------------------------------------------- table names

  /** The name `writeTable` creates for generation `g`. */
  function FileName(g: int): string {
    Prefix + Decimal(g) + Extension
  }

  /** The names `findTables` picks up: those ending with the extension. */
  predicate IsTableName(name: string) {
    |name| >= |Extension| && name[|name| - |Extension|..] == Extension
  }

  /** `getVersionFromName(name)`. */
  function VersionFromName(name: string): (r: Result<int32>)
    ensures (forall j :: !OccursAt(name, Prefix, j)) ==> r == Err(NoSeparator)
  {
    var piece :- SecondPiece(name, Prefix);
    ParseInt(RemoveAll(piece, Extension))
  }

  /** Text made of digits and signs holds no extension and no prefix: both
      contain letters. */
  lemma NoLettersInDecimal(d: string)
    requires forall i | 0 <= i < |d| :: IsDigit(d[i]) || d[i] == '-'
    ensures forall j :: !OccursAt(d + Extension, Prefix, j)
  {
    var s := d + Extension;
    forall j
      ensures !OccursAt(s, Prefix, j)
    {
      if 0 <= j && j + |Prefix| <= |s| {
        assert s[j..j + |Prefix|][0] == s[j];
        assert s[j] == d[j];
      }
    }
  }

  /** Deleting the extension from decimal text followed by the extension
      leaves the decimal text. */
  lemma {:induction false} RemoveExtension(d: string)
    requires forall i | 0 <= i < |d| :: IsDigit(d[i]) || d[i] == '-'
    ensures RemoveAll(d + Extension, Extension) == d
  {
    var s := d + Extension;
    if |d| == 0 {
      assert OccursAt(s, Extension, 0);
      assert s[|Extension|..] == [];
    } else {
      assert s[0] == d[0];
      assert s[0..|Extension|] != Extension by {
        assert s[0..|Extension|][0] == s[0];
      }
      assert s[1..] == d[1..] + Extension;
      RemoveExtension(d[1..]);
      assert [d[0]] + d[1..] == d;
    }
  }

  /** `getVersionFromName` inverts the name `writeTable` builds for every
      generation that fits in an `int`, and fails for every other. */
  lemma NameRoundTrip(g: int)
    ensures VersionFromName(FileName(g)) == if -0x8000_0000 <= g < 0x8000_0000 then Ok(g) else Err(NotANumber)
    ensures IsTableName(FileName(g))
  {
    var d := Decimal(g);
    var name := FileName(g);
    assert OccursAt(name, Prefix, 0);
    assert name[|Prefix|..] == d + Extension;
    NoLettersInDecimal(d);
    assert SecondPiece(name, Prefix) == Ok(d + Extension);
    RemoveExtension(d);
    ParseDecimal(g);
  }

  /** Different generations get different file names. */
  lemma FileNameInjective(a: int, b: int)
    requires FileName(a) == FileName(b)
    ensures a == b
  {
    var n := FileName(a);
    assert n[|Prefix|..|n| - |Extension|] == Decimal(a);
    assert n[|Prefix|..|n| - |Extension|] == Decimal(b);
    DecimalInjective(a, b);
  }
}

=== FILE: key_order.dfy ===
/** The one key order used everywhere in the store: `ByteBuffer.compareTo`.
    Keys compare lexicographically by SIGNED byte value; when one key is a
    proper prefix of the other, the shorter one sorts first. */
module KeyOrder {
  import opened Common

  type Key = Bytes

  /** The value of a byte read as Java's signed `byte`. */
  function Signed(b: byte): int {
    if b < 128 then b else b - 256
  }

  /** `a.compareTo(b)`: the difference of the first mismatching signed bytes,
      or the difference of the lengths when one is a prefix of the other. */
  function KeyCompare(a: seq<byte>, b: seq<byte>): int
    decreases |a|
  {
    if |a| == 0 || |b| == 0 then |a| - |b|
    else if a[0] != b[0] then Signed(a[0]) - Signed(b[0])
    else KeyCompare(a[1..], b[1..])
  }

  predicate KeyLess(a: seq<byte>, b: seq<byte>) {
    KeyCompare(a, b) < 0
  }

  predicate KeyLe(a: seq<byte>, b: seq<byte>) {
    KeyCompare(a, b) <= 0
  }

  /** The comparison is zero exactly on equal keys. */
  lemma {:induction false} KeyCompareZero(a: seq<byte>, b: seq<byte>)
    ensures KeyCompare(a, b) == 0 <==> a == b
    decreases |a|
  {
    if |a| == 0 || |b| == 0 {
    } else if a[0] != b[0] {
    } else {
      KeyCompareZero(a[1..], b[1..]);
      assert a == [a[0]] + a[1..] && b == [b[0]] + b[1..];
    }
  }

  /** Swapping the operands negates the comparison. */
  lemma {:induction false} KeyCompareAntisymmetric(a: seq<byte>, b: seq<byte>)
    ensures KeyCompare(a, b) == -KeyCompare(b, a)
    decreases |a|
  {
    if |a| == 0 || |b| == 0 {
    } else if a[0] != b[0] {
    } else {
      KeyCompareAntisymmetric(a[1..], b[1..]);
    }
  }

  /** The strict order is transitive. */
  lemma {:induction false} KeyLessTransitive(a: seq<byte>, b: seq<byte>, c: seq<byte>)
    requires KeyLess(a, b) && KeyLess(b, c)
    ensures KeyLess(a, c)
    decreases |a|
  {
    if |a| == 0 || |b| == 0 || |c| == 0 {
    } else if a[0] != b[0] || b[0] != c[0] {
    } else {
      KeyLessTransitive(a[1..], b[1..], c[1..]);
    }
  }

  /** Distinct keys are comparable: the strict order is total. */
  lemma KeyLessTotal(a: seq<byte>, b: seq<byte>)
    ensures a == b || KeyLess(a, b) || KeyLess(b, a)
    ensures !(KeyLess(a, b) && KeyLess(b, a))
    ensures !KeyLess(a, a)
  {
    KeyCompareZero(a, b);
    KeyCompareAntisymmetric(a, b);
    KeyCompareZero(a, a);
  }

  lemma KeyLeTransitive(a: seq<byte>, b: seq<byte>, c: seq<byte>)
    requires KeyLe(a, b) && KeyLe(b, c)
    ensures KeyLe(a, c)
  {
    KeyCompareZero(a, b);
    KeyCompareZero(b, c);
    if KeyLess(a, b) && KeyLess(b, c) {
      KeyLessTransitive(a, b, c);
    }
  }

  lemma KeyLessLe(a: seq<byte>, b: seq<byte>, c: seq<byte>)
    requires (KeyLess(a, b) && KeyLe(b, c)) || (KeyLe(a, b) && KeyLess(b, c))
    ensures KeyLess(a, c)
  {
    KeyCompareZero(a, b);
    KeyCompareZero(b, c);
    if KeyLess(a, b) && KeyLess(b, c) {
      KeyLessTransitive(a, b, c);
    }
  }

  /** The empty key is the least key: `MyDAO.MIN_BYTE_BUFFER` starts a full scan. */
  lemma EmptyKeyLeast(k: seq<byte>)
    ensures KeyLe([], k)
    ensures !KeyLess(k, [])
  {
  }

  predicate StrictlyAscending(ks: seq<Key>) {
    forall i, j | 0 <= i < j < |ks| :: KeyLess(ks[i], ks[j])
  }

  predicate IsLeast(m: Key, s: set<Key>) {
    m in s && forall k | k in s :: KeyLe(m, k)
  }

  lemma {:induction false} LeastExists(s: set<Key>)
    requires s != {}
    ensures exists m :: IsLeast(m, s)
    decreases |s|
  {
    var x :| x in s;
    if s == {x} {
      KeyCompareZero(x, x);
      assert IsLeast(x, s);
    } else {
      var rest := s - {x};
      LeastExists(rest);
      var m: Key :| IsLeast(m, rest);
      KeyLessTotal(m, x);
      if KeyLess(x, m) {
        forall k | k in s
          ensures KeyLe(x, k)
        {
          if k == x {
            KeyCompareZero(x, x);
          } else {
            assert KeyLe(m, k);
            KeyLessLe(x, m, k);
          }
        }
        assert IsLeast(x, s);
      } else {
        KeyCompareZero(m, x);
        assert IsLeast(m, s);
      }
    }
  }

  lemma LeastUnique(s: set<Key>)
    ensures forall m: Key, n: Key | IsLeast(m, s) && IsLeast(n, s) :: m == n
  {
    forall m: Key, n: Key | IsLeast(m, s) && IsLeast(n, s)
      ensures m == n
    {
      KeyCompareZero(m, n);
      KeyCompareAntisymmetric(m, n);
    }
  }

  /** The least key of a non-empty set. */
  function MinKey(s: set<Key>): (m: Key)
    requires s != {}
    ensures m in s && forall k | k in s :: KeyLe(m, k)
  {
    LeastExists(s);
    LeastUnique(s);
    var m: Key :| IsLeast(m, s);
    m
  }

  /** The keys of a finite set in ascending order: the traversal order of a
      `TreeMap` key set. */
  function SortedKeys(s: set<Key>): (r: seq<Key>)
    ensures StrictlyAscending(r)
    ensures forall k :: k in r <==> k in s
    ensures |r| == |s|
    decreases |s|
  {
    if s == {} then []
    else
      var m := MinKey(s);
      var rest := SortedKeys(s - {m});
      assert forall k | k in rest :: KeyLess(m, k) by {
        forall k | k in rest
          ensures KeyLess(m, k)
        {
          KeyCompareZero(m, k);
        }
      }
      [m] + rest
  }
}

=== FILE: memtable.dfy ===
/** `MemoryTable`: the in-memory sorted map from key to value that takes all
    writes, with an incrementally maintained byte-size counter and a fixed
    generation. */
module MemTable {
  import opened Common
  import opened KeyOrder
  import opened Versions
  import opened CellSeqs

  datatype MemoryTable = MemoryTable(entries: map<Key, Value>, sizeInBytes: int, generation: int)

  /** `new MemoryTable(generation)`. */
  function New(generation: int): (t: MemoryTable)
    ensures t.entries == map[] && t.sizeInBytes == 0 && t.generation == generation
    ensures Valid(t)
  {
    MemoryTable(map[], 0, generation)
  }

  /** What one entry contributes to the size counter: its key bytes, plus its
      payload bytes while it is live. */
  function Cost(key: Key, v: Value): nat {
    |key| + (if v.isTombstone then 0 else |PayloadOf(v)|)
  }

  /** The closed form of the size counter: the sum of `Cost` over the map. */
  ghost function Footprint(m: map<Key, Value>): nat
    decreases |m|
  {
    if m == map[] then 0
    else
      var k :| k in m;
      Cost(k, m[k]) + Footprint(m - {k})
  }

  /** The sum can be split off at any key, not only the one `Footprint` picks. */
  lemma {:induction false} FootprintSplit(m: map<Key, Value>, k: Key)
    requires k in m
    ensures Footprint(m) == Cost(k, m[k]) + Footprint(m - {k})
    decreases |m|
  {
    var j :| j in m && Footprint(m) == Cost(j, m[j]) + Footprint(m - {j});
    if j != k {
      var mj := m - {j};
      var mk := m - {k};
      assert |mj| < |m| && |mk| < |m|;
      FootprintSplit(mj, k);
      FootprintSplit(mk, j);
      assert mj - {k} == mk - {j};
    }
  }

  /** Every stored value pairs the tombstone flag with an absent payload. */
  predicate ValuesWellFormed(t: MemoryTable) {
    forall k | k in t.entries :: WellFormed(t.entries[k])
  }

  /** The table invariant: the counter equals the closed form, and the
      stored values are well-formed. */
  ghost predicate Valid(t: MemoryTable) {
    t.sizeInBytes == Footprint(t.entries) && ValuesWellFormed(t)
  }

  /** What the entry for `key` contributes before a write: nothing if absent. */
  function PriorCost(t: MemoryTable, key: Key): nat {
    if key in t.entries then Cost(key, t.entries[key]) else 0
  }

  /** `upsert(key, value)`: a live value at `key`, stamped `now`; the counter
      moves by the change in this key's contribution. */
  function Upsert(t: MemoryTable, key: Key, value: Bytes, now: int64): (r: MemoryTable)
    ensures r.generation == t.generation
    ensures key in r.entries && r.entries[key] == Live(value, now)
    ensures forall k | k != key :: (k in r.entries <==> k in t.entries)
    ensures forall k | k != key && k in t.entries :: r.entries[k] == t.entries[k]
    ensures r.sizeInBytes == t.sizeInBytes - PriorCost(t, key) + |key| + |value|
    ensures ValuesWellFormed(t) ==> ValuesWellFormed(r)
  {
    var val := Live(value, now);
    var size :=
      if key in t.entries then
        var prior := t.entries[key];
        if !prior.isTombstone then t.sizeInBytes - |PayloadOf(prior)| else t.sizeInBytes
      else t.sizeInBytes + |key|;
    MemoryTable(t.entries[key := val], size + |value|, t.generation)
  }

  /** `remove(key)`: a tombstone at `key`, stamped `now`. An absent key is
      charged its own length, as for a first insertion. */
  function Remove(t: MemoryTable, key: Key, now: int64): (r: MemoryTable)
    ensures r.generation == t.generation
    ensures key in r.entries && r.entries[key] == Tombstone(now)
    ensures forall k | k != key :: (k in r.entries <==> k in t.entries)
    ensures forall k | k != key && k in t.entries :: r.entries[k] == t.entries[k]
    ensures r.sizeInBytes == t.sizeInBytes - PriorCost(t, key) + |key|
    ensures ValuesWellFormed(t) ==> ValuesWellFormed(r)
  {
    var val := Tombstone(now);
    var size :=
      if key in t.entries then
        var prior := t.entries[key];
        if !prior.isTombstone then t.sizeInBytes - |PayloadOf(prior)| else t.sizeInBytes
      else t.sizeInBytes + |key|;
    MemoryTable(t.entries[key := val], size, t.generation)
  }

  /** Overwriting one entry changes the closed form by the change of that
      entry's cost. */
  lemma FootprintUpdate(m: map<Key, Value>, key: Key, v: Value)
    ensures Footprint(m[key := v]) ==
      Footprint(m) - (if key in m then Cost(key, m[key]) else 0) + Cost(key, v)
  {
    var m' := m[key := v];
    FootprintSplit(m', key);
    assert m' - {key} == m - {key};
    if key in m {
      FootprintSplit(m, key);
    } else {
      assert m - {key} == m;
    }
  }

  /** Both mutators keep the counter equal to its closed form, so it is never
      negative. */
  lemma UpsertPreservesValid(t: MemoryTable, key: Key, value: Bytes, now: int64)
    requires Valid(t)
    ensures Valid(Upsert(t, key, value, now))
    ensures Upsert(t, key, value, now).sizeInBytes >= 0
  {
    FootprintUpdate(t.entries, key, Live(value, now));
  }

  lemma RemovePreservesValid(t: MemoryTable, key: Key, now: int64)
    requires Valid(t)
    ensures Valid(Remove(t, key, now))
    ensures Remove(t, key, now).sizeInBytes >= 0
  {
    FootprintUpdate(t.entries, key, Tombstone(now));
  }

  /** The whole map in ascending key order, each entry tagged with the
      table's generation. */
  function Entries(t: MemoryTable): (r: seq<Cell>)
    ensures KeysAscending(r) && Tagged(r, t.generation)
    ensures forall c :: c in r <==>
      c.key in t.entries && c.value == t.entries[c.key] && c.generation == t.generation
  {
    var ks := SortedKeys(t.entries.Keys);
    var r := seq(|ks|, i requires 0 <= i < |ks| => Cell(ks[i], t.entries[ks[i]], t.generation));
    assert forall c: Cell | c.key in t.entries && c.value == t.entries[c.key] && c.generation == t.generation :: c in r by {
      forall c: Cell | c.key in t.entries && c.value == t.entries[c.key] && c.generation == t.generation
        ensures c in r
      {
        var i :| 0 <= i < |ks| && ks[i] == c.key;
        assert r[i] == c;
      }
    }
    r
  }

  /** `iterator(from)`: the `tailMap(from)` entries, ascending, tagged with the
      table's generation. */
  function Iterator(t: MemoryTable, from: Key): (r: seq<Cell>)
    ensures KeysAscending(r) && Tagged(r, t.generation)
    ensures forall c :: c in r <==>
      c.key in t.entries && c.value == t.entries[c.key] && c.generation == t.generation
      && !KeyLess(c.key, from)
  {
    AtOrAfter(Entries(t), from)
  }

  /** A valid table hands out well-formed values only. */
  lemma IteratorWellFormed(t: MemoryTable, from: Key)
    requires Valid(t)
    ensures AllWellFormed(Iterator(t, from))
  {
    var r := Iterator(t, from);
    forall i | 0 <= i < |r|
      ensures WellFormed(r[i].value)
    {
      assert r[i] in r;
    }
  }

  /** A table with well-formed values hands out well-formed cells. */
  lemma EntriesWellFormed(t: MemoryTable)
    requires ValuesWellFormed(t)
    ensures AllWellFormed(Entries(t))
  {
    var r := Entries(t);
    forall i | 0 <= i < |r|
      ensures WellFormed(r[i].value)
    {
      assert r[i] in r;
    }
  }

  /** An empty table has no entries to hand out. */
  lemma EntriesEmpty(t: MemoryTable, from: Key)
    requires t.entries == map[]
    ensures Entries(t) == [] && Iterator(t, from) == []
  {
  }
}

=== FILE: merge_scan.dfy ===
/** The read path of `MyDAO.iterator`: the sources' cells merged into one
    ascending sequence (`Iterators.mergeSorted`), each run of equal keys cut
    down to its first cell (`Iters.collapseEquals`), tombstones dropped
    (`Iterators.filter`) and the rest turned into records
    (`Iterators.transform`). */
module MergeScan {
  import opened Common
  import opened KeyOrder
  import opened Versions
  import opened CellSeqs

  /** Ascending in the cell order. */
  predicate Sorted(s: seq<Cell>) {
    forall i, j | 0 <= i < j < |s| :: CellLe(s[i], s[j])
  }

  /** `c` sorts no later than any cell of `s`. */
  predicate LeAll(c: Cell, s: seq<Cell>) {
    forall i | 0 <= i < |s| :: CellLe(c, s[i])
  }

  lemma SortedSuffix(s: seq<Cell>, k: nat)
    requires Sorted(s) && k <= |s|
    ensures Sorted(s[k..])
  {
    forall i, j | 0 <= i < j < |s[k..]|
      ensures CellLe(s[k..][i], s[k..][j])
    {
      assert s[k..][i] == s[k + i] && s[k..][j] == s[k + j];
    }
  }

  /** The head of a sorted sequence sorts no later than any of its cells. */
  lemma HeadLeAll(s: seq<Cell>)
    requires Sorted(s) && |s| > 0
    ensures LeAll(s[0], s)
  {
    CellLeTotal(s[0], s[0]);
  }

  lemma SortedCons(c: Cell, s: seq<Cell>)
    requires Sorted(s) && LeAll(c, s)
    ensures Sorted([c] + s)
  {
    var r := [c] + s;
    forall i, j | 0 <= i < j < |r|
      ensures CellLe(r[i], r[j])
    {
      assert r[j] == s[j - 1];
      if i > 0 {
        assert r[i] == s[i - 1];
      }
    }
  }

  /** A bound on every cell of two sequences bounds every cell of anything
      holding exactly their cells. */
  lemma LeAllMultiset(c: Cell, a: seq<Cell>, b: seq<Cell>, r: seq<Cell>)
    requires LeAll(c, a) && LeAll(c, b)
    requires multiset(r) == multiset(a) + multiset(b)
    ensures LeAll(c, r)
  {
    forall i | 0 <= i < |r|
      ensures CellLe(c, r[i])
    {
      assert r[i] in multiset(r);
      if r[i] in multiset(a) {
        var p :| 0 <= p < |a| && a[p] == r[i];
      } else {
        assert r[i] in multiset(b);
        var p :| 0 <= p < |b| && b[p] == r[i];
      }
    }
  }

  /** A bound below the head of a sorted sequence bounds all of it. */
  lemma LeHead(c: Cell, s: seq<Cell>)
    requires Sorted(s) && |s| > 0 && CellLe(c, s[0])
    ensures LeAll(c, s)
  {
    forall i | 0 <= i < |s|
      ensures CellLe(c, s[i])
    {
      HeadLeAll(s);
      CellLeTransitive(c, s[0], s[i]);
    }
  }

  // ---------------------------------------------------------------- merge

  /** One binary step of `mergeSorted`: repeatedly take the smaller head,
      the left one on a tie. */
  function Merge(a: seq<Cell>, b: seq<Cell>): (r: seq<Cell>)
    ensures multiset(r) == multiset(a) + multiset(b)
    ensures |r| == |a| + |b|
    decreases |a| + |b|
  {
    if |a| == 0 then b
    else if |b| == 0 then a
    else if CellLe(a[0], b[0]) then
      assert a == [a[0]] + a[1..];
      [a[0]] + Merge(a[1..], b)
    else
      assert b == [b[0]] + b[1..];
      [b[0]] + Merge(a, b[1..])
  }

  /** Merging sorted sequences gives a sorted sequence. */
  lemma {:induction false} MergeSorted(a: seq<Cell>, b: seq<Cell>)
    requires Sorted(a) && Sorted(b)
    ensures Sorted(Merge(a, b))
    decreases |a| + |b|
  {
    if |a| > 0 && |b| > 0 {
      if CellLe(a[0], b[0]) {
        SortedSuffix(a, 1);
        MergeSorted(a[1..], b);
        HeadLeAll(a);
        assert LeAll(a[0], a[1..]);
        LeHead(a[0], b);
        LeAllMultiset(a[0], a[1..], b, Merge(a[1..], b));
        SortedCons(a[0], Merge(a[1..], b));
      } else {
        CellLeTotal(a[0], b[0]);
        SortedSuffix(b, 1);
        MergeSorted(a, b[1..]);
        HeadLeAll(b);
        assert LeAll(b[0], b[1..]);
        LeHead(b[0], a);
        LeAllMultiset(b[0], a, b[1..], Merge(a, b[1..]));
        SortedCons(b[0], Merge(a, b[1..]));
      }
    }
  }

  /** All cells of all sources, with multiplicity. */
  function Union(sources: seq<seq<Cell>>): multiset<Cell> {
    if |sources| == 0 then multiset{}
    else Union(sources[..|sources| - 1]) + multiset(sources[|sources| - 1])
  }

  /** `Iterators.mergeSorted(sources, naturalOrder())`, as a fold of binary
      merges from the left. */
  function MergeAll(sources: seq<seq<Cell>>): (r: seq<Cell>)
    ensures multiset(r) == Union(sources)
  {
    if |sources| == 0 then []
    else Merge(MergeAll(sources[..|sources| - 1]), sources[|sources| - 1])
  }

  /** Merging sorted sources gives a sorted sequence. */
  lemma {:induction false} MergeAllSorted(sources: seq<seq<Cell>>)
    requires forall i | 0 <= i < |sources| :: Sorted(sources[i])
    ensures Sorted(MergeAll(sources))
  {
    if |sources| > 0 {
      var init := sources[..|sources| - 1];
      assert forall i | 0 <= i < |init| :: init[i] == sources[i];
      MergeAllSorted(init);
      MergeSorted(MergeAll(init), sources[|sources| - 1]);
    }
  }

  /** A cell of the union comes from some source. */
  lemma {:induction false} UnionMember(sources: seq<seq<Cell>>, c: Cell)
    requires c in Union(sources)
    ensures exists i | 0 <= i < |sources| :: c in sources[i]
  {
    var init := sources[..|sources| - 1];
    if c in multiset(sources[|sources| - 1]) {
      assert c in sources[|sources| - 1];
    } else {
      UnionMember(init, c);
      var i :| 0 <= i < |init| && c in init[i];
      assert init[i] == sources[i];
    }
  }

  /** Every cell of every source is in the union. */
  lemma {:induction false} MemberUnion(sources: seq<seq<Cell>>, i: int, c: Cell)
    requires 0 <= i < |sources| && c in sources[i]
    ensures c in Union(sources)
  {
    var init := sources[..|sources| - 1];
    if i < |sources| - 1 {
      assert init[i] == sources[i];
      MemberUnion(init, i, c);
    } else {
      assert c in multiset(sources[i]);
    }
  }

  // ------------------------------------------------------------- collapse

  /** No two different cells share both key and generation: every source
      holds at most one version of a key, and sources have distinct
      generations. */
  predicate OneVersionPerSource(m: multiset<Cell>) {
    forall x, y | x in m && y in m && x.key == y.key && x.generation == y.generation :: x == y
  }

  /** Two sorted arrangements of the same tie-free cells start alike. */
  lemma SortedHeads(a: seq<Cell>, b: seq<Cell>)
    requires Sorted(a) && Sorted(b) && multiset(a) == multiset(b) && |a| > 0
    requires OneVersionPerSource(multiset(a))
    ensures |b| > 0 && a[0] == b[0]
  {
    assert |b| > 0 by {
      assert |multiset(b)| == |a|;
    }
    assert a[0] in multiset(b) && b[0] in multiset(a);
    var i :| 0 <= i < |b| && b[i] == a[0];
    var j :| 0 <= j < |a| && a[j] == b[0];
    HeadLeAll(a);
    HeadLeAll(b);
    assert CellLe(a[0], b[0]) && CellLe(b[0], a[0]);
    CellLeAntisymmetric(a[0], b[0]);
  }

  /** Without such ties there is exactly one sorted arrangement of the
      cells: the merge result does not depend on how ties are broken. */
  lemma {:induction false} SortedUnique(a: seq<Cell>, b: seq<Cell>)
    requires Sorted(a) && Sorted(b) && multiset(a) == multiset(b)
    requires OneVersionPerSource(multiset(a))
    ensures a == b
    decreases |a|
  {
    if |a| > 0 {
      SortedHeads(a, b);
      TailsAlike(a, b);
      SortedSuffix(a, 1);
      SortedSuffix(b, 1);
      SortedUnique(a[1..], b[1..]);
      assert a == [a[0]] + a[1..] && b == [b[0]] + b[1..];
    } else {
      assert |multiset(b)| == 0;
    }
  }

  /** Dropping equal heads from two arrangements of the same tie-free cells
      leaves two arrangements of the same tie-free cells. */
  lemma TailsAlike(a: seq<Cell>, b: seq<Cell>)
    requires |a| > 0 && |b| > 0 && a[0] == b[0] && multiset(a) == multiset(b)
    requires OneVersionPerSource(multiset(a))
    ensures multiset(a[1..]) == multiset(b[1..])
    ensures OneVersionPerSource(multiset(a[1..]))
  {
    assert a == [a[0]] + a[1..] && b == [b[0]] + b[1..];
    assert multiset(a) == multiset{a[0]} + multiset(a[1..]);
    assert multiset(b) == multiset{b[0]} + multiset(b[1..]);
    assert multiset(a[1..]) == multiset(a) - multiset{a[0]};
    assert multiset(b[1..]) == multiset(b) - multiset{b[0]};
  }

  /** Any sorted arrangement of the sources' cells, free of ties, is the
      merge result. */
  lemma MergeAllUnique(sources: seq<seq<Cell>>, s: seq<Cell>)
    requires forall i | 0 <= i < |sources| :: Sorted(sources[i])
    requires Sorted(s) && multiset(s) == Union(sources)
    requires OneVersionPerSource(Union(sources))
    ensures s == MergeAll(sources)
  {
    MergeAllSorted(sources);
    SortedUnique(s, MergeAll(sources));
  }

  /** The leading cells of `s` whose key is `key`, dropped. */
  function SkipKey(s: seq<Cell>, key: Key): (r: seq<Cell>)
    ensures |r| <= |s| && r == s[|s| - |r|..]
    ensures |r| > 0 ==> r[0].key != key
    ensures forall i | 0 <= i < |s| - |r| :: s[i].key == key
  {
    if |s| > 0 && s[0].key == key then SkipKey(s[1..], key) else s
  }

  /** `Iters.collapseEquals(cells, Cell::getKey)`: of every run of adjacent
      cells with equal keys, only the first. */
  function Collapse(s: seq<Cell>): (r: seq<Cell>)
    ensures forall c | c in r :: c in s
    decreases |s|
  {
    if |s| == 0 then []
    else
      var rest := SkipKey(s[1..], s[0].key);
      assert forall c | c in rest :: c in s by {
        forall c | c in rest
          ensures c in s
        {
          var p :| 0 <= p < |rest| && rest[p] == c;
          assert s[1..][|s[1..]| - |rest| + p] == c;
        }
      }
      [s[0]] + Collapse(rest)
  }

  /** `w` is a newest version of its key among `m`: no cell of `m` with the
      same key sorts before it. */
  predicate Newest(w: Cell, m: multiset<Cell>) {
    w in m && forall x | x in m && x.key == w.key :: CellLe(w, x)
  }

  /** The first run of `Collapse`: `SkipKey` drops the head's run, of
      length `n`. */
  lemma SkipRun(s: seq<Cell>) returns (n: nat)
    requires |s| > 0
    ensures 1 <= n <= |s|
    ensures SkipKey(s[1..], s[0].key) == s[n..]
    ensures n < |s| ==> s[n].key != s[0].key
    ensures forall i | 0 <= i < n :: s[i].key == s[0].key
  {
    var rest := SkipKey(s[1..], s[0].key);
    n := |s| - |rest|;
    assert rest == s[n..];
    forall i | 0 <= i < n
      ensures s[i].key == s[0].key
    {
      if i > 0 {
        assert s[1..][i - 1] == s[i];
      }
    }
  }

  /** In a sorted sequence, every key after the head's run exceeds the
      head's key. */
  lemma AfterRun(s: seq<Cell>, n: nat)
    requires Sorted(s) && 1 <= n <= |s|
    requires n < |s| ==> s[n].key != s[0].key
    ensures forall i | n <= i < |s| :: KeyLess(s[0].key, s[i].key)
  {
    forall i | n <= i < |s|
      ensures KeyLess(s[0].key, s[i].key)
    {
      CellLeKeyLe(s[0], s[n]);
      KeyCompareZero(s[0].key, s[n].key);
      if i > n {
        CellLeKeyLe(s[n], s[i]);
        KeyLessLe(s[0].key, s[n].key, s[i].key);
      }
    }
  }

  /** The first step of `Collapse` on a sorted sequence: the run of the
      head's key has length `n`, and every key after it is strictly greater. */
  lemma CollapseStep(s: seq<Cell>) returns (n: nat)
    requires Sorted(s) && |s| > 0
    ensures 1 <= n <= |s|
    ensures Collapse(s) == [s[0]] + Collapse(s[n..])
    ensures forall i | 0 <= i < n :: s[i].key == s[0].key
    ensures forall i | n <= i < |s| :: KeyLess(s[0].key, s[i].key)
    ensures Sorted(s[n..])
  {
    n := SkipRun(s);
    AfterRun(s, n);
    SortedSuffix(s, n);
  }

  /** Putting a cell in front of key-ascending cells drawn from a stretch
      whose keys all exceed its own keeps the keys ascending. */
  lemma ConsAscending(s: seq<Cell>, n: nat, tail: seq<Cell>)
    requires 1 <= n <= |s|
    requires forall i | n <= i < |s| :: KeyLess(s[0].key, s[i].key)
    requires KeysAscending(tail)
    requires forall c | c in tail :: c in s[n..]
    ensures KeysAscending([s[0]] + tail)
  {
    var r := [s[0]] + tail;
    forall i, j | 0 <= i < j < |r|
      ensures KeyLess(r[i].key, r[j].key)
    {
      assert r[j] == tail[j - 1] && r[j] in tail;
      if i > 0 {
        assert r[i] == tail[i - 1];
      } else {
        assert r[j] in s[n..];
        var q :| 0 <= q < |s[n..]| && s[n..][q] == r[j];
        assert s[n + q] == r[j];
      }
    }
  }

  /** Collapsing a sorted sequence leaves keys in strictly ascending order. */
  lemma {:induction false} CollapseAscending(s: seq<Cell>)
    requires Sorted(s)
    ensures KeysAscending(Collapse(s))
    decreases |s|
  {
    if |s| > 0 {
      var n := CollapseStep(s);
      CollapseAscending(s[n..]);
      ConsAscending(s, n, Collapse(s[n..]));
    }
  }

  /** Every cell that collapsing a sorted sequence keeps is a newest version
      of its key. */
  lemma {:induction false} CollapseNewest(s: seq<Cell>)
    requires Sorted(s)
    ensures forall c | c in Collapse(s) :: Newest(c, multiset(s))
    decreases |s|
  {
    if |s| > 0 {
      var n := CollapseStep(s);
      CollapseNewest(s[n..]);
      var tail := Collapse(s[n..]);
      HeadLeAll(s);
      forall c | c in Collapse(s)
        ensures Newest(c, multiset(s))
      {
        if c == s[0] {
          forall x | x in multiset(s) && x.key == c.key
            ensures CellLe(c, x)
          {
            var p :| 0 <= p < |s| && s[p] == x;
          }
        } else {
          CollapseTailNewest(s, n, c);
        }
      }
    }
  }

  /** A newest version among the cells after the first run is a newest
      version among all cells: the first run has a smaller key. */
  lemma CollapseTailNewest(s: seq<Cell>, n: nat, c: Cell)
    requires 1 <= n <= |s|
    requires forall i | n <= i < |s| :: KeyLess(s[0].key, s[i].key)
    requires forall i | 0 <= i < n :: s[i].key == s[0].key
    requires c in s[n..] && Newest(c, multiset(s[n..]))
    ensures Newest(c, multiset(s))
  {
    var q :| 0 <= q < |s[n..]| && s[n..][q] == c;
    assert s[n + q] == c;
    forall x | x in multiset(s) && x.key == c.key
      ensures CellLe(c, x)
    {
      var p :| 0 <= p < |s| && s[p] == x;
      if p < n {
        KeyLessTotal(s[0].key, c.key);
        assert false;
      }
      assert s[n..][p - n] == x;
    }
  }

  /** Putting the head in front of cells that cover every key after the
      head's run covers every key. */
  lemma ConsComplete(s: seq<Cell>, n: nat, tail: seq<Cell>)
    requires 1 <= n <= |s|
    requires forall i | 0 <= i < n :: s[i].key == s[0].key
    requires forall x | x in s[n..] :: x.key in KeysOf(tail)
    ensures forall x | x in s :: x.key in KeysOf([s[0]] + tail)
  {
    var r := [s[0]] + tail;
    forall x | x in s
      ensures x.key in KeysOf(r)
    {
      var p :| 0 <= p < |s| && s[p] == x;
      if p < n {
        assert r[0] == s[0];
      } else {
        assert s[n..][p - n] == x;
        var c :| c in tail && c.key == x.key;
        var q :| 0 <= q < |tail| && tail[q] == c;
        assert r[q + 1] == c;
      }
    }
  }

  /** The keys of the cells of `s`. */
  function KeysOf(s: seq<Cell>): set<Key> {
    set c | c in s :: c.key
  }

  /** Every key of a sorted sequence survives collapsing. */
  lemma {:induction false} CollapseComplete(s: seq<Cell>)
    requires Sorted(s)
    ensures forall x | x in s :: x.key in KeysOf(Collapse(s))
    decreases |s|
  {
    if |s| > 0 {
      var n := CollapseStep(s);
      CollapseComplete(s[n..]);
      ConsComplete(s, n, Collapse(s[n..]));
    }
  }

  // ----------------------------------------------------- filter, transform

  /** `Iterators.filter(cells, cell -> !isTombstone)`. */
  function DropTombstones(s: seq<Cell>): (r: seq<Cell>)
    ensures forall c :: c in r <==> c in s && !c.value.isTombstone
    ensures KeysAscending(s) ==> KeysAscending(r)
  {
    if |s| == 0 then []
    else
      var rest := DropTombstones(s[1..]);
      assert KeysAscending(s) ==> forall c | c in rest :: KeyLess(s[0].key, c.key) by {
        if KeysAscending(s) {
          forall c | c in rest
            ensures KeyLess(s[0].key, c.key)
          {
            var j :| 0 <= j < |s[1..]| && s[1..][j] == c;
            assert s[j + 1] == c;
          }
        }
      }
      if s[0].value.isTombstone then rest else [s[0]] + rest
  }

  /** A key and its value as the DAO hands them out. */
  datatype Record = Record(key: Key, value: Bytes)

  /** `Record.of(cell.getKey(), cell.getValue().getValue())`. */
  function RecordOf(c: Cell): (r: Record)
    ensures r.key == c.key
    ensures c.value.payload.Some? ==> r.value == c.value.payload.value
  {
    Record(c.key, PayloadOf(c.value))
  }

  /** `Iterators.transform(cells, RecordOf)`. */
  function ToRecords(s: seq<Cell>): (r: seq<Record>)
    ensures |r| == |s|
    ensures forall i | 0 <= i < |s| :: r[i] == RecordOf(s[i])
  {
    seq(|s|, i requires 0 <= i < |s| => RecordOf(s[i]))
  }

  predicate RecordsAscending(rs: seq<Record>) {
    forall i, j | 0 <= i < j < |rs| :: KeyLess(rs[i].key, rs[j].key)
  }

  /** The whole read pipeline over the sources' cells. */
  function Pipeline(sources: seq<seq<Cell>>): seq<Record> {
    ToRecords(DropTombstones(Collapse(MergeAll(sources))))
  }

  /** In a key-ascending sequence a key names at most one cell. */
  lemma AscendingKeyUnique(s: seq<Cell>, x: Cell, y: Cell)
    requires KeysAscending(s) && x in s && y in s && x.key == y.key
    ensures x == y
  {
    var i :| 0 <= i < |s| && s[i] == x;
    var j :| 0 <= j < |s| && s[j] == y;
    KeyLessTotal(x.key, y.key);
  }

  /** The records of live newest versions are sound: each is the payload
      of a live newest version of its key. */
  lemma RecordsSound(live: seq<Cell>, out: seq<Record>, u: multiset<Cell>)
    requires |out| == |live| && forall i | 0 <= i < |live| :: out[i] == RecordOf(live[i])
    requires forall c | c in live :: Newest(c, u) && !c.value.isTombstone
    ensures forall r | r in out :: exists w | Newest(w, u) :: !w.value.isTombstone && r == RecordOf(w)
  {
    forall r | r in out
      ensures exists w | Newest(w, u) :: !w.value.isTombstone && r == RecordOf(w)
    {
      var i :| 0 <= i < |out| && out[i] == r;
      assert live[i] in live;
    }
  }

  lemma RecordsAscendingOf(live: seq<Cell>, out: seq<Record>)
    requires |out| == |live| && forall i | 0 <= i < |live| :: out[i] == RecordOf(live[i])
    requires KeysAscending(live)
    ensures RecordsAscending(out)
  {
    forall i, j | 0 <= i < j < |out|
      ensures KeyLess(out[i].key, out[j].key)
    {
      assert out[i].key == live[i].key && out[j].key == live[j].key;
    }
  }

  /** Without ties, the one cell kept per key is the newest version. */
  lemma NewestKept(col: seq<Cell>, u: multiset<Cell>, w: Cell)
    requires OneVersionPerSource(u)
    requires forall c | c in col :: Newest(c, u)
    requires forall x | x in u :: x.key in KeysOf(col)
    requires Newest(w, u)
    ensures w in col
  {
    var c :| c in col && c.key == w.key;
    assert Newest(c, u);
    CellLeAntisymmetric(c, w);
  }

  /** So a live newest version has its record ... */
  lemma LiveNewestListed(col: seq<Cell>, live: seq<Cell>, out: seq<Record>, u: multiset<Cell>)
    requires OneVersionPerSource(u)
    requires forall c | c in col :: Newest(c, u)
    requires forall x | x in u :: x.key in KeysOf(col)
    requires forall c :: c in live <==> c in col && !c.value.isTombstone
    requires |out| == |live| && forall i | 0 <= i < |live| :: out[i] == RecordOf(live[i])
    ensures forall w | Newest(w, u) && !w.value.isTombstone :: RecordOf(w) in out
  {
    forall w | Newest(w, u) && !w.value.isTombstone
      ensures RecordOf(w) in out
    {
      NewestKept(col, u, w);
      assert w in live;
      var i :| 0 <= i < |live| && live[i] == w;
      assert out[i] == RecordOf(w);
    }
  }

  /** ... and a dead newest version silences its key. */
  lemma DeadNewestSilent(col: seq<Cell>, live: seq<Cell>, out: seq<Record>, u: multiset<Cell>)
    requires OneVersionPerSource(u)
    requires KeysAscending(col)
    requires forall c | c in col :: Newest(c, u)
    requires forall x | x in u :: x.key in KeysOf(col)
    requires forall c :: c in live <==> c in col && !c.value.isTombstone
    requires |out| == |live| && forall i | 0 <= i < |live| :: out[i] == RecordOf(live[i])
    ensures forall w | Newest(w, u) && w.value.isTombstone :: forall r | r in out :: r.key != w.key
  {
    forall w, r | Newest(w, u) && w.value.isTombstone && r in out
      ensures r.key != w.key
    {
      NewestKept(col, u, w);
      var i :| 0 <= i < |out| && out[i] == r;
      assert live[i] in live;
      if r.key == w.key {
        AscendingKeyUnique(col, live[i], w);
        assert false;
      }
    }
  }

  /** What the read pipeline yields, stated without the pipeline: records in
      strictly ascending key order, each the payload of a live newest version
      of its key; and, when no two cells share key and generation, every key
      whose newest version is live appears with that payload, while a key
      whose newest version is a tombstone does not appear at all. */
  lemma PipelineSpec(sources: seq<seq<Cell>>)
    requires forall i | 0 <= i < |sources| :: Sorted(sources[i])
    ensures RecordsAscending(Pipeline(sources))
    ensures forall r | r in Pipeline(sources) ::
      exists w | Newest(w, Union(sources)) :: !w.value.isTombstone && r == RecordOf(w)
    ensures OneVersionPerSource(Union(sources)) ==>
      forall w | Newest(w, Union(sources)) && !w.value.isTombstone :: RecordOf(w) in Pipeline(sources)
    ensures OneVersionPerSource(Union(sources)) ==>
      forall w | Newest(w, Union(sources)) && w.value.isTombstone ::
        forall r | r in Pipeline(sources) :: r.key != w.key
  {
    var u := Union(sources);
    var merged := MergeAll(sources);
    MergeAllSorted(sources);
    CollapseAscending(merged);
    CollapseNewest(merged);
    CollapseComplete(merged);
    var col := Collapse(merged);
    var live := DropTombstones(col);
    var out := ToRecords(live);
    assert out == Pipeline(sources);
    RecordsAscendingOf(live, out);
    RecordsSound(live, out, u);
    if OneVersionPerSource(u) {
      LiveNewestListed(col, live, out, u);
      DeadNewestSilent(col, live, out, u);
    }
  }

  /** A key-ascending sequence is sorted in the cell order. */
  lemma KeysAscendingSorted(s: seq<Cell>)
    requires KeysAscending(s)
    ensures Sorted(s)
  {
    forall i, j | 0 <= i < j < |s|
      ensures CellLe(s[i], s[j])
    {
      KeyLessTotal(s[i].key, s[j].key);
      CellOrderByKey(s[i], s[j]);
    }
  }

  // ------------------------------------------------------ scan from a key

  /** A cell of the union comes from a source whose generation it carries. */
  lemma SourceOf(sources: seq<seq<Cell>>, gens: seq<int>, x: Cell) returns (i: nat)
    requires |gens| == |sources|
    requires forall i | 0 <= i < |sources| :: Tagged(sources[i], gens[i])
    requires x in Union(sources)
    ensures i < |sources| && x in sources[i] && x.generation == gens[i]
  {
    UnionMember(sources, x);
    i :| 0 <= i < |sources| && x in sources[i];
    var p :| 0 <= p < |sources[i]| && sources[i][p] == x;
  }

  /** Sources whose cells ascend by key, each tagged with a generation of
      its own, hold one version per key and source. */
  lemma DistinctSources(sources: seq<seq<Cell>>, gens: seq<int>)
    requires |gens| == |sources|
    requires forall i | 0 <= i < |sources| :: KeysAscending(sources[i]) && Tagged(sources[i], gens[i])
    requires forall i, j | 0 <= i < j < |gens| :: gens[i] != gens[j]
    ensures OneVersionPerSource(Union(sources))
  {
    var u := Union(sources);
    forall x, y | x in u && y in u && x.key == y.key && x.generation == y.generation
      ensures x == y
    {
      var i := SourceOf(sources, gens, x);
      var j := SourceOf(sources, gens, y);
      assert i == j;
      AscendingKeyUnique(sources[i], x, y);
    }
  }

  /** Each source cut down to its cells at or after `from`. */
  function Filtered(cs: seq<seq<Cell>>, from: Key): (r: seq<seq<Cell>>)
    ensures |r| == |cs| && forall i | 0 <= i < |cs| :: r[i] == AtOrAfter(cs[i], from)
  {
    seq(|cs|, i requires 0 <= i < |cs| => AtOrAfter(cs[i], from))
  }

  /** Cutting every source at `from` cuts their union at `from`. */
  lemma FilteredUnion(cs: seq<seq<Cell>>, from: Key, x: Cell)
    ensures x in Union(Filtered(cs, from)) <==> x in Union(cs) && !KeyLess(x.key, from)
  {
    var fs := Filtered(cs, from);
    if x in Union(fs) {
      UnionMember(fs, x);
      var i :| 0 <= i < |fs| && x in fs[i];
      MemberUnion(cs, i, x);
    }
    if x in Union(cs) && !KeyLess(x.key, from) {
      UnionMember(cs, x);
      var i :| 0 <= i < |cs| && x in cs[i];
      MemberUnion(fs, i, x);
    }
  }

  /** `r` is what a scan from `from` shows of the versions `m`: the payload
      of a live newest version of a key at or after `from`. */
  ghost predicate Shows(m: multiset<Cell>, from: Key, r: Record) {
    exists w | Newest(w, m) :: !w.value.isTombstone && !KeyLess(w.key, from) && r == RecordOf(w)
  }

  /** For keys at or after `from`, the newest versions among the cut
      sources are the newest versions among all. */
  lemma FilteredNewest(cs: seq<seq<Cell>>, from: Key, w: Cell)
    requires !KeyLess(w.key, from)
    ensures Newest(w, Union(Filtered(cs, from))) <==> Newest(w, Union(cs))
  {
    var u, f := Union(cs), Union(Filtered(cs, from));
    FilteredUnion(cs, from, w);
    forall x: Cell | x.key == w.key
      ensures x in f <==> x in u
    {
      FilteredUnion(cs, from, x);
    }
  }

  /** The read pipeline over sources cut at `from` shows exactly, in
      ascending key order, the live newest versions at or after `from`. */
  lemma ScanOfVersions(cs: seq<seq<Cell>>, from: Key)
    requires forall i | 0 <= i < |cs| :: KeysAscending(cs[i])
    requires OneVersionPerSource(Union(cs))
    ensures RecordsAscending(Pipeline(Filtered(cs, from)))
    ensures forall r :: r in Pipeline(Filtered(cs, from)) <==> Shows(Union(cs), from, r)
  {
    var fs := Filtered(cs, from);
    var u, f := Union(cs), Union(fs);
    forall i | 0 <= i < |fs|
      ensures Sorted(fs[i])
    {
      KeysAscendingSorted(fs[i]);
    }
    assert OneVersionPerSource(f) by {
      forall x | x in f
        ensures x in u
      {
        FilteredUnion(cs, from, x);
      }
    }
    PipelineSpec(fs);
    var out := Pipeline(fs);
    forall r
      ensures r in out <==> Shows(u, from, r)
    {
      if r in out {
        var w :| Newest(w, f) && !w.value.isTombstone && r == RecordOf(w);
        FilteredUnion(cs, from, w);
        FilteredNewest(cs, from, w);
      }
      if Shows(u, from, r) {
        var w :| Newest(w, u) && !w.value.isTombstone && !KeyLess(w.key, from) && r == RecordOf(w);
        FilteredNewest(cs, from, w);
      }
    }
  }

  /** What a scan shows for a key is decided by that key's newest version:
      its payload when live, nothing when a tombstone. */
  lemma ShowsNewest(m: multiset<Cell>, from: Key, w: Cell, r: Record)
    requires OneVersionPerSource(m) && Newest(w, m) && r.key == w.key
    ensures Shows(m, from, r) <==> !w.value.isTombstone && !KeyLess(w.key, from) && r == RecordOf(w)
  {
    if Shows(m, from, r) {
      var v :| Newest(v, m) && !v.value.isTombstone && !KeyLess(v.key, from) && r == RecordOf(v);
      CellLeAntisymmetric(v, w);
    }
  }
}

=== FILE: table_format.dfy ===
/** The on-disk table file of `STable`: the byte-exact writer (`writeTable`)
    and the positional readers (`getRowCount`, `getOffset`, `getKey`,
    `getCell`), with the proof that the readers give back what the writer
    wrote.

    record := keyLen:int64 | key | timestamp:int64 | tombstone:int8
              ( | valueLen:int64 | value )        -- only when tombstone == 0
    footer := offset_0:int64 ... offset_{n-1}:int64 | rowCount:int32
*/
module TableFormat {
  import opened Common
  import opened BigEndian
  import opened KeyOrder
  import opened Versions
  import opened CellSeqs

  // ---------------------------------------------------------------- writer

  /** The tombstone byte: 1 for a tombstone, 0 for a live value. */
  function Flag(v: Value): byte {
    if v.isTombstone then 1 else 0
  }

  /** One record as `writeTable` emits it. A live value must carry a payload
      (the writer dereferences it). */
  function EncodeRecord(c: Cell): (r: seq<byte>)
    requires WellFormed(c.value)
    ensures |r| >= 17
  {
    EncodeInt64(|c.key|) + c.key + EncodeInt64(c.value.timestamp) + [Flag(c.value)]
    + (if c.value.isTombstone then [] else EncodeInt64(|PayloadOf(c.value)|) + PayloadOf(c.value))
  }

  /** The records of `cells`, back to back, in order. */
  function Records(cells: seq<Cell>): seq<byte>
    requires AllWellFormed(cells)
  {
    if |cells| == 0 then []
    else Records(cells[..|cells| - 1]) + EncodeRecord(cells[|cells| - 1])
  }

  /** Where record `i` starts: the file position when the writer reaches it. */
  function RecordStart(cells: seq<Cell>, i: nat): nat
    requires AllWellFormed(cells) && i <= |cells|
  {
    |Records(cells[..i])|
  }

  /** The offsets of the first `n` records, each written as a `long` after the
      `(int)` cast of the channel position. */
  function OffsetTable(cells: seq<Cell>, n: nat): (r: seq<byte>)
    requires AllWellFormed(cells) && n <= |cells|
    ensures |r| == 8 * n
  {
    if n == 0 then []
    else OffsetTable(cells, n - 1) + EncodeInt64(Wrap32(RecordStart(cells, n - 1)))
  }

  /** The whole file `writeTable` produces for `cells`: the records, the
      offset table, then the row count. */
  function TableImage(cells: seq<Cell>): (r: seq<byte>)
    requires AllWellFormed(cells)
    ensures |r| == |Records(cells)| + 8 * |cells| + 4
  {
    Records(cells) + OffsetTable(cells, |cells|) + EncodeInt32(Wrap32(|cells|))
  }

  // ---------------------------------------------------------------- reader

  /** An opened table: the file contents, its generation and the row count
      read once at open time. */
  datatype STable = STable(file: seq<byte>, generation: int, rowCount: int32)

  /** The bytes a positional read of `n` bytes at `pos` leaves in a fresh
      buffer: the file's bytes, then zeros past the end of the file. */
  function Fill(file: seq<byte>, pos: nat, n: nat): (r: seq<byte>)
    ensures |r| == n
  {
    seq(n, j requires 0 <= j < n => if pos + j < |file| then file[pos + j] else 0)
  }

  /** `channel.read(buffer, pos)`: a negative position is refused. */
  function ReadAt(file: seq<byte>, pos: int, n: nat): (r: Result<seq<byte>>)
    ensures r.Ok? ==> |r.value| == n
  {
    if pos < 0 then Err(NegativePosition) else Ok(Fill(file, pos, n))
  }

  function ReadLong(file: seq<byte>, pos: int): Result<int64> {
    var bs :- ReadAt(file, pos, 8);
    Ok(DecodeInt64(bs))
  }

  function ReadInt(file: seq<byte>, pos: int): Result<int32> {
    var bs :- ReadAt(file, pos, 4);
    Ok(DecodeInt32(bs))
  }

  /** A length field at a valid position: a `long` that must be a valid
      buffer size. */
  function LengthAt(file: seq<byte>, pos: nat): (r: Result<nat>)
    ensures r.Ok? ==> r.value < 0x8000_0000
  {
    var n := DecodeInt64(Fill(file, pos, 8));
    if 0 <= n < 0x8000_0000 then Ok(n) else Err(BadLength)
  }

  /** `getRowCount`: the last four bytes of the file. */
  function RowCount(file: seq<byte>): (r: Result<int32>)
    ensures r.Err? <==> |file| < 4
    ensures r.Ok? ==> r.value == DecodeInt32(file[|file| - 4..])
  {
    if |file| < 4 then ReadInt(file, |file| - 4)
    else
      assert Fill(file, |file| - 4, 4) == file[|file| - 4..];
      ReadInt(file, |file| - 4)
  }

  /** `new STable(file, generation)`. */
  function OpenTable(file: seq<byte>, generation: int): (r: Result<STable>)
    ensures r.Ok? ==> r.value.file == file && r.value.generation == generation
  {
    var n :- RowCount(file);
    Ok(STable(file, generation, n))
  }

  /** `getOffset(i)`: the `long` at `size - 4 - 8 * (rowCount - i)`, where
      the subtraction `rowCount - i` is `int` arithmetic and wraps. */
  function Offset(t: STable, i: int): (r: Result<int64>)
    ensures r.Err? <==> 8 * Wrap32(t.rowCount - i) > |t.file| - 4
    ensures 0 <= i <= t.rowCount ==> (r.Err? <==> 8 * (t.rowCount - i) > |t.file| - 4)
  {
    ReadLong(t.file, |t.file| - 4 - 8 * Wrap32(t.rowCount - i))
  }

  /** A corrupt row count of -2^31 makes the first midpoint of the binary
      search, 2^30 - 1, land at `rowCount - i == 2^30 + 1` once the `int`
      subtraction wraps: the footer position is negative for any file under
      8 GiB, so the read fails rather than returning zeros. */
  lemma OffsetWrapsLikeInt(file: seq<byte>)
    requires |file| < 8 * 0x4000_0001 + 4
    ensures Offset(STable(file, 0, -0x8000_0000), 0x3FFF_FFFF).Err?
  {
    assert Wrap32(-0x8000_0000 - 0x3FFF_FFFF) == 0x4000_0001;
  }

  /** The key of the record starting at `pos`. */
  function KeyAtOffset(file: seq<byte>, pos: int): Result<Key> {
    if pos < 0 then Err(NegativePosition)
    else
      var keySize :- LengthAt(file, pos);
      Ok(Fill(file, pos + 8, keySize))
  }

  /** The record starting at `pos`, as a cell of generation `generation`. */
  function CellAtOffset(file: seq<byte>, pos: int, generation: int): (r: Result<Cell>)
    ensures r.Ok? ==> WellFormed(r.value.value) && r.value.generation == generation
  {
    if pos < 0 then Err(NegativePosition)
    else
      var keySize :- LengthAt(file, pos);
      var key: Key := Fill(file, pos + 8, keySize);
      var timestamp := DecodeInt64(Fill(file, pos + 8 + keySize, 8));
      var tombstone := Fill(file, pos + 16 + keySize, 1)[0] != 0;
      if tombstone then
        Ok(Cell(key, Tombstone(timestamp), generation))
      else
        var valueSize :- LengthAt(file, pos + 17 + keySize);
        var value: Bytes := Fill(file, pos + 25 + keySize, valueSize);
        Ok(Cell(key, Live(value, timestamp), generation))
  }

  /** `getKey(i)`. */
  function KeyAt(t: STable, i: int): (r: Result<Key>)
    ensures r.Ok? ==> Offset(t, i).Ok? && Offset(t, i).value >= 0
    ensures r.Ok? ==>
      var pos := Offset(t, i).value;
      LengthAt(t.file, pos) == Ok(|r.value|) && r.value == Fill(t.file, pos + 8, |r.value|)
  {
    var offset :- Offset(t, i);
    KeyAtOffset(t.file, offset)
  }

  /** `getCell(i)`: the record, tagged with the table's generation. */
  function CellAt(t: STable, i: int): (r: Result<Cell>)
    ensures r.Ok? ==> WellFormed(r.value.value) && r.value.generation == t.generation
  {
    var offset :- Offset(t, i);
    CellAtOffset(t.file, offset, t.generation)
  }

  /** Reading a cell also reads its key: the two readers agree. */
  lemma CellAtKeyAt(t: STable, i: int)
    requires CellAt(t, i).Ok?
    ensures KeyAt(t, i) == Ok(CellAt(t, i).value.key)
  {
  }

  // ------------------------------------------------------------ round trip

  /** The middle part of a stretch of the file that holds `pre + mid + post`
      reads back as `mid`. */
  lemma FieldAt(file: seq<byte>, pos: nat, pre: seq<byte>, mid: seq<byte>, post: seq<byte>)
    requires pos + |pre| + |mid| + |post| <= |file|
    requires file[pos..pos + |pre| + |mid| + |post|] == pre + mid + post
    ensures Fill(file, pos + |pre|, |mid|) == mid
  {
    forall j | 0 <= j < |mid|
      ensures Fill(file, pos + |pre|, |mid|)[j] == mid[j]
    {
      assert file[pos + |pre| + j] == (pre + mid + post)[|pre| + j];
    }
  }

  /** Bytes `a..b` of a stretch of the file that holds `e` read back as
      `e[a..b]`. */
  lemma SubRange(file: seq<byte>, pos: nat, e: seq<byte>, a: nat, b: nat)
    requires pos + |e| <= |file| && file[pos..pos + |e|] == e
    requires a <= b <= |e|
    ensures Fill(file, pos + a, b - a) == e[a..b]
  {
    forall j | 0 <= j < b - a
      ensures Fill(file, pos + a, b - a)[j] == e[a..b][j]
    {
      assert file[pos + a + j] == file[pos..pos + |e|][a + j];
    }
  }

  /** Where each field of a record sits. */
  lemma RecordFields(c: Cell)
    requires WellFormed(c.value)
    ensures var e := EncodeRecord(c); var n := |c.key|;
      && 17 + n <= |e|
      && e[0..8] == EncodeInt64(n)
      && e[8..8 + n] == c.key
      && e[8 + n..16 + n] == EncodeInt64(c.value.timestamp)
      && e[16 + n..17 + n] == [Flag(c.value)]
      && (!c.value.isTombstone ==>
            var p := PayloadOf(c.value);
            && |e| == 25 + n + |p|
            && e[17 + n..25 + n] == EncodeInt64(|p|)
            && e[25 + n..25 + n + |p|] == p)
  {
    var k := c.key;
    var head := EncodeInt64(|k|) + k + EncodeInt64(c.value.timestamp) + [Flag(c.value)];
    var tail := if c.value.isTombstone then [] else EncodeInt64(|PayloadOf(c.value)|) + PayloadOf(c.value);
    var e := EncodeRecord(c);
    assert e == head + tail;
    assert e[..17 + |k|] == head;
    assert head[0..8] == EncodeInt64(|k|);
    assert head[8..8 + |k|] == k;
    assert head[8 + |k|..16 + |k|] == EncodeInt64(c.value.timestamp);
    if !c.value.isTombstone {
      assert e[17 + |k|..] == tail;
    }
  }

  /** The key length and key of a record written at `pos` read back. */
  lemma KeyReadBack(file: seq<byte>, pos: nat, c: Cell)
    requires WellFormed(c.value)
    requires pos + |EncodeRecord(c)| <= |file|
    requires file[pos..pos + |EncodeRecord(c)|] == EncodeRecord(c)
    ensures LengthAt(file, pos) == Ok(|c.key|)
    ensures Fill(file, pos + 8, |c.key|) == c.key
  {
    var e := EncodeRecord(c);
    var n := |c.key|;
    RecordFields(c);
    SubRange(file, pos, e, 0, 8);
    Int64RoundTrip(n);
    SubRange(file, pos, e, 8, 8 + n);
  }

  /** The timestamp and tombstone flag of a record written at `pos` read
      back. */
  lemma StampReadBack(file: seq<byte>, pos: nat, c: Cell)
    requires WellFormed(c.value)
    requires pos + |EncodeRecord(c)| <= |file|
    requires file[pos..pos + |EncodeRecord(c)|] == EncodeRecord(c)
    ensures DecodeInt64(Fill(file, pos + 8 + |c.key|, 8)) == c.value.timestamp
    ensures Fill(file, pos + 16 + |c.key|, 1)[0] == Flag(c.value)
  {
    var e := EncodeRecord(c);
    var n := |c.key|;
    RecordFields(c);
    SubRange(file, pos, e, 8 + n, 16 + n);
    Int64RoundTrip(c.value.timestamp);
    SubRange(file, pos, e, 16 + n, 17 + n);
  }

  /** The payload of a live record written at `pos` reads back as written. */
  lemma PayloadReadBack(file: seq<byte>, pos: nat, c: Cell)
    requires WellFormed(c.value) && !c.value.isTombstone
    requires pos + |EncodeRecord(c)| <= |file|
    requires file[pos..pos + |EncodeRecord(c)|] == EncodeRecord(c)
    ensures LengthAt(file, pos + 17 + |c.key|) == Ok(|PayloadOf(c.value)|)
    ensures Fill(file, pos + 25 + |c.key|, |PayloadOf(c.value)|) == PayloadOf(c.value)
  {
    var e := EncodeRecord(c);
    var n := |c.key|;
    var p := PayloadOf(c.value);
    RecordFields(c);
    SubRange(file, pos, e, 17 + n, 25 + n);
    Int64RoundTrip(|p|);
    SubRange(file, pos, e, 25 + n, 25 + n + |p|);
  }

  /** A record written at `pos` reads back as the same key, timestamp,
      tombstone flag and payload. */
  lemma RecordReadBack(file: seq<byte>, pos: nat, c: Cell, generation: int)
    requires WellFormed(c.value)
    requires pos + |EncodeRecord(c)| <= |file|
    requires file[pos..pos + |EncodeRecord(c)|] == EncodeRecord(c)
    ensures KeyAtOffset(file, pos) == Ok(c.key)
    ensures CellAtOffset(file, pos, generation) == Ok(Cell(c.key, c.value, generation))
  {
    KeyReadBack(file, pos, c);
    StampReadBack(file, pos, c);
    if !c.value.isTombstone {
      PayloadReadBack(file, pos, c);
      assert c.value == Live(PayloadOf(c.value), c.value.timestamp);
    } else {
      assert c.value == Tombstone(c.value.timestamp);
    }
  }

  lemma {:induction false} RecordsAppend(a: seq<Cell>, b: seq<Cell>)
    requires AllWellFormed(a) && AllWellFormed(b)
    ensures AllWellFormed(a + b)
    ensures Records(a + b) == Records(a) + Records(b)
    decreases |b|
  {
    if |b| > 0 {
      var b' := b[..|b| - 1];
      assert (a + b)[..|a + b| - 1] == a + b';
      RecordsAppend(a, b');
    } else {
      assert a + b == a;
    }
  }

  /** Record `i` of the image sits at `RecordStart(cells, i)`. */
  lemma RecordPlacement(cells: seq<Cell>, i: nat)
    requires AllWellFormed(cells) && i < |cells|
    ensures RecordStart(cells, i) + |EncodeRecord(cells[i])| <= |Records(cells)|
    ensures Records(cells)[RecordStart(cells, i)..RecordStart(cells, i) + |EncodeRecord(cells[i])|]
      == EncodeRecord(cells[i])
  {
    var front := cells[..i];
    var back := cells[i + 1..];
    assert cells == front + [cells[i]] + back;
    assert [cells[i]][..0] == [];
    RecordsAppend(front, [cells[i]]);
    RecordsAppend(front + [cells[i]], back);
    var fr := Records(front);
    var e := EncodeRecord(cells[i]);
    assert Records(cells) == fr + e + Records(back);
    assert (fr + e + Records(back))[|fr|..|fr| + |e|] == e;
  }

  /** The writer's offsets: the first record starts at 0 and each next one
      right after the previous record. */
  lemma RecordStartStep(cells: seq<Cell>, i: nat)
    requires AllWellFormed(cells) && i < |cells|
    ensures RecordStart(cells, 0) == 0
    ensures RecordStart(cells, i + 1) == RecordStart(cells, i) + |EncodeRecord(cells[i])|
  {
    assert cells[..i + 1][..i] == cells[..i];
  }

  /** Offset `i` of the offset table holds record `i`'s start. */
  lemma {:induction false} OffsetPlacement(cells: seq<Cell>, n: nat, i: nat)
    requires AllWellFormed(cells) && n <= |cells| && i < n
    ensures OffsetTable(cells, n)[8 * i..8 * i + 8] == EncodeInt64(Wrap32(RecordStart(cells, i)))
    decreases n
  {
    var prev := OffsetTable(cells, n - 1);
    var last := EncodeInt64(Wrap32(RecordStart(cells, n - 1)));
    assert OffsetTable(cells, n) == prev + last;
    if i < n - 1 {
      OffsetPlacement(cells, n - 1, i);
      assert (prev + last)[8 * i..8 * i + 8] == prev[8 * i..8 * i + 8];
    } else {
      assert (prev + last)[8 * i..8 * i + 8] == last;
    }
  }

  /** A file image fits the format's `int` positions: record starts and the
      row count survive the writer's `(int)` casts. */
  predicate FitsFormat(cells: seq<Cell>) {
    && AllWellFormed(cells)
    && |Records(cells)| < 0x8000_0000
    && |cells| < 0x8000_0000
  }

  lemma RecordStartBelow(cells: seq<Cell>, i: nat)
    requires AllWellFormed(cells) && i < |cells|
    ensures RecordStart(cells, i) < |Records(cells)|
  {
    RecordPlacement(cells, i);
  }

  lemma FillInside(file: seq<byte>, pos: nat, n: nat)
    requires pos + n <= |file|
    ensures Fill(file, pos, n) == file[pos..pos + n]
  {
  }

  /** Opening a written file reads its row count back. */
  lemma OpenWritten(cells: seq<Cell>, generation: int)
    requires FitsFormat(cells)
    ensures OpenTable(TableImage(cells), generation)
      == Ok(STable(TableImage(cells), generation, |cells|))
  {
    var img := TableImage(cells);
    var head := Records(cells) + OffsetTable(cells, |cells|);
    var count := EncodeInt32(|cells|);
    assert img == head + count;
    assert img[|head|..] == count;
    assert |img| - 4 == |head|;
    FillInside(img, |head|, 4);
    assert Fill(img, |img| - 4, 4) == count;
    Int32RoundTrip(|cells|);
    assert RowCount(img) == Ok(|cells|);
  }

  /** A `long` written at `pos` reads back. */
  lemma LongReadBack(file: seq<byte>, pos: nat, x: int64)
    requires pos + 8 <= |file| && file[pos..pos + 8] == EncodeInt64(x)
    ensures ReadLong(file, pos) == Ok(x)
  {
    FillInside(file, pos, 8);
    Int64RoundTrip(x);
  }

  /** A stretch of the middle part of a concatenation lies in that part. */
  lemma SliceOfMiddle(a: seq<byte>, b: seq<byte>, c: seq<byte>, lo: nat, hi: nat)
    requires lo <= hi <= |b|
    ensures (a + b + c)[|a| + lo..|a| + hi] == b[lo..hi]
  {
    assert (a + b + c)[|a| + lo..|a| + hi] == (a + b + c)[|a|..|a| + |b|][lo..hi];
    assert (a + b + c)[|a|..|a| + |b|] == b;
  }

  /** In a file laid out as records, an offset table of `n` entries and a
      four-byte count, `getOffset(i)` reads entry `i`. */
  lemma OffsetEntry(recs: seq<byte>, offs: seq<byte>, count: seq<byte>, generation: int,
                    n: int32, i: nat, x: int64)
    requires |offs| == 8 * n && |count| == 4 && i < n
    requires offs[8 * i..8 * i + 8] == EncodeInt64(x)
    ensures Offset(STable(recs + offs + count, generation, n), i) == Ok(x)
  {
    var file := recs + offs + count;
    SliceOfMiddle(recs, offs, count, 8 * i, 8 * i + 8);
    assert |file| - 4 - 8 * (n - i) == |recs| + 8 * i;
    LongReadBack(file, |recs| + 8 * i, x);
  }

  /** Offset `i` of a written file reads back as record `i`'s start. */
  lemma OffsetWritten(cells: seq<Cell>, generation: int, i: nat)
    requires FitsFormat(cells) && i < |cells|
    ensures Offset(STable(TableImage(cells), generation, |cells|), i) == Ok(RecordStart(cells, i))
  {
    var recs := Records(cells);
    var offs := OffsetTable(cells, |cells|);
    var count := EncodeInt32(Wrap32(|cells|));
    OffsetPlacement(cells, |cells|, i);
    RecordStartBelow(cells, i);
    assert TableImage(cells) == recs + offs + count;
    OffsetEntry(recs, offs, count, generation, |cells|, i, RecordStart(cells, i));
  }

  /** A record that sits inside the front part of a file reads back. */
  lemma RecordInFront(recs: seq<byte>, rest: seq<byte>, pos: nat, c: Cell, generation: int)
    requires WellFormed(c.value)
    requires pos + |EncodeRecord(c)| <= |recs|
    requires recs[pos..pos + |EncodeRecord(c)|] == EncodeRecord(c)
    ensures KeyAtOffset(recs + rest, pos) == Ok(c.key)
    ensures CellAtOffset(recs + rest, pos, generation) == Ok(Cell(c.key, c.value, generation))
  {
    var e := EncodeRecord(c);
    assert (recs + rest)[pos..pos + |e|] == recs[pos..pos + |e|];
    RecordReadBack(recs + rest, pos, c, generation);
  }

  /** Record `i` of a written file reads back as the `i`-th cell. */
  lemma RecordWritten(cells: seq<Cell>, generation: int, i: nat)
    requires FitsFormat(cells) && i < |cells|
    ensures KeyAtOffset(TableImage(cells), RecordStart(cells, i)) == Ok(cells[i].key)
    ensures CellAtOffset(TableImage(cells), RecordStart(cells, i), generation)
      == Ok(Cell(cells[i].key, cells[i].value, generation))
  {
    RecordPlacement(cells, i);
    var rest := OffsetTable(cells, |cells|) + EncodeInt32(Wrap32(|cells|));
    assert TableImage(cells) == Records(cells) + rest;
    RecordInFront(Records(cells), rest, RecordStart(cells, i), cells[i], generation);
  }

  /** The round trip: on a written file, offset `i` is where record `i` was
      written, and `getKey(i)` and `getCell(i)` return the `i`-th written key
      and cell, tagged with the table's generation. */
  lemma ReadWritten(cells: seq<Cell>, generation: int, i: nat)
    requires FitsFormat(cells) && i < |cells|
    ensures var t := STable(TableImage(cells), generation, |cells|);
      && Offset(t, i) == Ok(RecordStart(cells, i))
      && KeyAt(t, i) == Ok(cells[i].key)
      && CellAt(t, i) == Ok(Cell(cells[i].key, cells[i].value, generation))
  {
    OffsetWritten(cells, generation, i);
    RecordWritten(cells, generation, i);
  }
}

=== FILE: table_scan.dfy ===
/** Reading an opened table in key order: `findIndex` (the binary search for
    the first row at or after a key), `iteratorFromTable` (the rows from there
    to the end), and the order on tables. */
module TableScan {
  import opened Common
  import opened KeyOrder
  import opened Versions
  import opened CellSeqs
  import opened TableFormat

  /** `getKey` and `getCell` of a table, as functions of the row index. The
      search and the scan below are stated over such readers, so that they
      depend on what the rows hold and not on how they are decoded. */
  function KeyReader(t: STable): int -> Result<Key> {
    i => KeyAt(t, i)
  }

  function CellReader(t: STable): int -> Result<Cell> {
    i => CellAt(t, i)
  }

  // ------------------------------------------------------- rows in order

  /** Rows `i .. rowCount - 1`, each read with `getCell`. */
  function CellsFrom(getCell: int -> Result<Cell>, i: int, rowCount: int): (r: Result<seq<Cell>>)
    decreases rowCount - i
    ensures r.Ok? <==> forall j | i <= j < rowCount :: getCell(j).Ok?
    ensures r.Ok? ==> |r.value| == if i < rowCount then rowCount - i else 0
    ensures r.Ok? ==> forall j | 0 <= j < |r.value| :: getCell(i + j) == Ok(r.value[j])
  {
    if i >= rowCount then Ok([])
    else
      var c :- getCell(i);
      var rest :- CellsFrom(getCell, i + 1, rowCount);
      Ok([c] + rest)
  }

  /** Rows read from `i` on are the tail of the rows read from 0. */
  lemma CellsFromSuffix(getCell: int -> Result<Cell>, i: int, rowCount: int)
    requires CellsFrom(getCell, 0, rowCount).Ok? && 0 <= i <= rowCount
    ensures CellsFrom(getCell, i, rowCount) == Ok(CellsFrom(getCell, 0, rowCount).value[i..])
  {
    var all := CellsFrom(getCell, 0, rowCount).value;
    assert forall j | i <= j < rowCount :: getCell(j).Ok?;
    assert CellsFrom(getCell, i, rowCount).Ok?;
    var tail := CellsFrom(getCell, i, rowCount).value;
    assert |tail| == |all[i..]|;
    forall j | 0 <= j < |tail|
      ensures tail[j] == all[i..][j]
    {
      assert getCell(i + j) == Ok(tail[j]);
      assert getCell(0 + (i + j)) == Ok(all[i + j]);
    }
    assert tail == all[i..];
  }

  // ------------------------------------------------------------- search

  /** Row `j`'s key reads back and sorts before `from`. */
  predicate KeyBelow(getKey: int -> Result<Key>, j: int, from: Key) {
    getKey(j).Ok? && KeyLess(getKey(j).value, from)
  }

  /** Row `j`'s key reads back and sorts at or after `from`. */
  predicate KeyAtLeast(getKey: int -> Result<Key>, j: int, from: Key) {
    getKey(j).Ok? && !KeyLess(getKey(j).value, from)
  }

  /** The keys of rows `low .. high` all read back and strictly ascend. */
  predicate SortedRows(getKey: int -> Result<Key>, low: int, high: int) {
    && (forall j | low <= j <= high :: getKey(j).Ok?)
    && (forall i, j | low <= i < j <= high :: KeyLess(getKey(i).value, getKey(j).value))
  }

  /** The first row in `i .. high` whose key is at or after `from`, or
      `high + 1` if there is none, found by reading the keys in turn. */
  function ScanStart(getKey: int -> Result<Key>, from: Key, i: int, high: int): (r: Result<int>)
    decreases high - i
    ensures r.Ok? ==> i <= r.value && (r.value <= high + 1 || r.value == i)
    ensures r.Ok? ==> forall j | i <= j < r.value :: KeyBelow(getKey, j, from)
    ensures r.Ok? && r.value <= high ==> KeyAtLeast(getKey, r.value, from)
  {
    if i > high then Ok(i)
    else
      var k :- getKey(i);
      if KeyLess(k, from) then ScanStart(getKey, from, i + 1, high) else Ok(i)
  }

  /** On sorted rows, once a key is at or after `from`, so are all later
      ones. */
  lemma AtLeastOnward(getKey: int -> Result<Key>, from: Key, i: int, high: int)
    requires SortedRows(getKey, i, high) && i <= high && KeyAtLeast(getKey, i, from)
    ensures forall j | i <= j <= high :: KeyAtLeast(getKey, j, from)
  {
    var k := getKey(i).value;
    forall j | i < j <= high
      ensures KeyAtLeast(getKey, j, from)
    {
      var kj := getKey(j).value;
      KeyLessTotal(kj, from);
      if KeyLess(kj, from) {
        KeyLessTransitive(k, kj, from);
      }
    }
  }

  /** On sorted rows the scan reads every key it needs and stops at the lower
      bound of `from`. */
  lemma {:induction false} ScanStartSorted(getKey: int -> Result<Key>, from: Key, i: int, high: int)
    requires SortedRows(getKey, i, high)
    ensures ScanStart(getKey, from, i, high).Ok?
    ensures forall j | ScanStart(getKey, from, i, high).value <= j <= high :: KeyAtLeast(getKey, j, from)
    decreases high - i
  {
    if i <= high {
      if KeyBelow(getKey, i, from) {
        assert SortedRows(getKey, i + 1, high);
        ScanStartSorted(getKey, from, i + 1, high);
      } else {
        AtLeastOnward(getKey, from, i, high);
      }
    }
  }

  /** Between `low` and `high + 1` there is one place where the keys below
      `from` end. */
  lemma LowerBoundUnique(getKey: int -> Result<Key>, from: Key, low: int, high: int, p: int, q: int)
    requires low <= p && (p <= high + 1 || p == low)
    requires low <= q && (q <= high + 1 || q == low)
    requires forall j | low <= j < p :: KeyBelow(getKey, j, from)
    requires forall j | p <= j <= high :: KeyAtLeast(getKey, j, from)
    requires forall j | low <= j < q :: KeyBelow(getKey, j, from)
    requires forall j | q <= j <= high :: KeyAtLeast(getKey, j, from)
    ensures p == q
  {
    if p < q {
      var probe := KeyBelow(getKey, p, from) && KeyAtLeast(getKey, p, from);
      assert false;
    } else if q < p {
      var probe := KeyBelow(getKey, q, from) && KeyAtLeast(getKey, q, from);
      assert false;
    }
  }

  /** On sorted rows, a row holding `from` itself is the lower bound. */
  lemma LowerBoundAtKey(getKey: int -> Result<Key>, from: Key, low: int, high: int, p: int)
    requires SortedRows(getKey, low, high) && low <= p
    requires forall j | low <= j < p :: KeyBelow(getKey, j, from)
    requires forall j | p <= j <= high :: KeyAtLeast(getKey, j, from)
    ensures forall j | low <= j <= high && getKey(j) == Ok(from) :: p == j
  {
    forall j | low <= j <= high && getKey(j) == Ok(from)
      ensures p == j
    {
      KeyCompareZero(from, from);
      if p < j {
        var probe := (getKey(p), getKey(j), KeyAtLeast(getKey, p, from));
        assert false;
      } else if j < p {
        var probe := KeyBelow(getKey, j, from);
        assert false;
      }
    }
  }

  /** `findIndex(from, low, high)`: binary search over rows `low .. high`,
      reading keys with `getKey`. On sorted rows it returns the index of
      `from` when some row holds it, and otherwise the first row whose key is
      greater; either way this is where the linear scan stops. */
  method FindIndex(getKey: int -> Result<Key>, from: Key, low: int, high: int) returns (r: Result<int>)
    ensures r.Ok? ==> low <= r.value && (r.value <= high + 1 || r.value == low)
    ensures low > high ==> r == Ok(low)
    ensures SortedRows(getKey, low, high) ==> r.Ok?
    ensures SortedRows(getKey, low, high) ==> forall j | low <= j < r.value :: KeyBelow(getKey, j, from)
    ensures SortedRows(getKey, low, high) ==> forall j | r.value <= j <= high :: KeyAtLeast(getKey, j, from)
    ensures SortedRows(getKey, low, high) ==>
      forall j | low <= j <= high && getKey(j) == Ok(from) :: r.value == j
    ensures SortedRows(getKey, low, high) ==> r == ScanStart(getKey, from, low, high)
  {
    var lo := low;
    var hi := high;
    while lo <= hi
      invariant low <= lo && hi <= high
      invariant lo <= hi + 1 || (lo == low && hi == high)
      invariant SortedRows(getKey, low, high) ==> forall j | low <= j < lo :: KeyBelow(getKey, j, from)
      invariant SortedRows(getKey, low, high) ==>
        forall j | hi < j <= high :: getKey(j).Ok? && KeyLess(from, getKey(j).value)
      decreases hi - lo
    {
      var mid := JavaDiv(lo + hi, 2);
      var midKey :- getKey(mid);
      var compare := KeyCompare(midKey, from);
      if compare < 0 {
        if SortedRows(getKey, low, high) {
          forall j | low <= j <= mid
            ensures KeyBelow(getKey, j, from)
          {
            if j < mid {
              KeyLessTransitive(getKey(j).value, midKey, from);
            }
          }
        }
        lo := mid + 1;
      } else if compare > 0 {
        KeyCompareAntisymmetric(midKey, from);
        if SortedRows(getKey, low, high) {
          forall j | mid <= j <= high
            ensures KeyLess(from, getKey(j).value)
          {
            if mid < j && j <= hi {
              KeyLessTransitive(from, midKey, getKey(j).value);
            }
          }
        }
        hi := mid - 1;
      } else {
        KeyCompareZero(midKey, from);
        r := Ok(mid);
        if SortedRows(getKey, low, high) {
          forall j | mid < j <= high
            ensures KeyAtLeast(getKey, j, from)
          {
            KeyLessTotal(getKey(j).value, from);
          }
          ScanStartSorted(getKey, from, low, high);
          LowerBoundUnique(getKey, from, low, high, mid, ScanStart(getKey, from, low, high).value);
          LowerBoundAtKey(getKey, from, low, high, mid);
        }
        return;
      }
    }
    r := Ok(lo);
    if SortedRows(getKey, low, high) {
      forall j | lo <= j <= high
        ensures KeyAtLeast(getKey, j, from)
      {
        KeyLessTotal(getKey(j).value, from);
      }
      ScanStartSorted(getKey, from, low, high);
      LowerBoundUnique(getKey, from, low, high, lo, ScanStart(getKey, from, low, high).value);
      LowerBoundAtKey(getKey, from, low, high, lo);
    }
  }

  // ------------------------------------------------------------- tables

  /** Every row of the table, in file order. */
  function TableCells(t: STable): Result<seq<Cell>> {
    CellsFrom(CellReader(t), 0, t.rowCount)
  }

  /** A table the writer could have produced: a row count that is not
      negative, every row readable, and keys strictly ascending. */
  predicate WellFormedTable(t: STable) {
    && 0 <= t.rowCount
    && TableCells(t).Ok?
    && KeysAscending(TableCells(t).value)
  }

  /** What `iteratorFromTable(from)` yields: the rows from the lower bound of
      `from` to the end of the table. */
  function TableScan(t: STable, from: Key): Result<seq<Cell>> {
    var start :- ScanStart(KeyReader(t), from, 0, Wrap32(t.rowCount - 1));
    CellsFrom(CellReader(t), start, t.rowCount)
  }

  /** On a well-formed table the rows' keys are what `getKey` reads, and
      they are sorted. */
  lemma WellFormedSorted(t: STable)
    requires WellFormedTable(t)
    ensures SortedRows(KeyReader(t), 0, t.rowCount - 1)
    ensures forall j | 0 <= j < t.rowCount :: KeyReader(t)(j) == Ok(TableCells(t).value[j].key)
  {
    var all := TableCells(t).value;
    forall j | 0 <= j < t.rowCount
      ensures KeyReader(t)(j) == Ok(all[j].key)
    {
      assert CellReader(t)(0 + j) == Ok(all[j]);
      CellAtKeyAt(t, j);
    }
  }

  /** A table scan of a well-formed table is exactly its rows at or after
      `from`, in ascending key order. */
  lemma TableScanSpec(t: STable, from: Key)
    requires WellFormedTable(t)
    ensures TableScan(t, from) == Ok(AtOrAfter(TableCells(t).value, from))
  {
    var all := TableCells(t).value;
    var high := t.rowCount - 1;
    var getKey := KeyReader(t);
    WellFormedSorted(t);
    ScanStartSorted(getKey, from, 0, high);
    var start := ScanStart(getKey, from, 0, high).value;
    assert TableScan(t, from) == CellsFrom(CellReader(t), start, t.rowCount);
    CellsFromSuffix(CellReader(t), start, t.rowCount);
    forall j | 0 <= j < start
      ensures KeyLess(all[j].key, from)
    {
      assert KeyBelow(getKey, j, from);
    }
    forall j | start <= j < |all|
      ensures !KeyLess(all[j].key, from)
    {
      assert KeyAtLeast(getKey, j, from);
    }
    SuffixIsAtOrAfter(all, from, start);
  }

  /** Every row of a table carries the table's generation and a well-formed
      value. */
  lemma TableCellsTagged(t: STable)
    requires TableCells(t).Ok?
    ensures Tagged(TableCells(t).value, t.generation)
    ensures AllWellFormed(TableCells(t).value)
  {
    var all := TableCells(t).value;
    forall j | 0 <= j < |all|
      ensures all[j].generation == t.generation && WellFormed(all[j].value)
    {
      assert CellReader(t)(0 + j) == Ok(all[j]);
    }
  }

  /** `iteratorFromTable(from)`: a binary search for the first row, then the
      rows from there to the end. On a well-formed table this is the table
      scan, and so the rows at or after `from`. */
  method IteratorFromTable(t: STable, from: Key) returns (r: Result<seq<Cell>>)
    ensures -0x8000_0000 < t.rowCount <= 0 ==> r == Ok([])
    ensures WellFormedTable(t) ==> r == TableScan(t, from)
    ensures WellFormedTable(t) ==> r == Ok(AtOrAfter(TableCells(t).value, from))
  {
    if WellFormedTable(t) {
      WellFormedSorted(t);
      TableScanSpec(t, from);
    }
    var start :- FindIndex(KeyReader(t), from, 0, Wrap32(t.rowCount - 1));
    r := CellsFrom(CellReader(t), start, t.rowCount);
  }

  /** A file written from cells of one generation reads back, row by row, as
      those very cells. */
  lemma {:induction false} WrittenCellsFrom(cells: seq<Cell>, generation: int, i: nat)
    requires FitsFormat(cells) && Tagged(cells, generation) && i <= |cells|
    ensures CellsFrom(CellReader(STable(TableImage(cells), generation, |cells|)), i, |cells|)
      == Ok(cells[i..])
    decreases |cells| - i
  {
    var t := STable(TableImage(cells), generation, |cells|);
    if i < |cells| {
      ReadWritten(cells, generation, i);
      assert CellReader(t)(i) == Ok(cells[i]);
      WrittenCellsFrom(cells, generation, i + 1);
      assert CellsFrom(CellReader(t), i, |cells|) == Ok([cells[i]] + cells[i + 1..]);
      assert cells[i..] == [cells[i]] + cells[i + 1..];
    } else {
      assert cells[i..] == [];
    }
  }

  /** `writeTable` followed by `new STable`: the opened table holds exactly
      the written cells, and is well-formed when they ascend by key. */
  lemma WrittenTable(cells: seq<Cell>, generation: int)
    requires FitsFormat(cells) && Tagged(cells, generation)
    ensures OpenTable(TableImage(cells), generation) == Ok(STable(TableImage(cells), generation, |cells|))
    ensures TableCells(STable(TableImage(cells), generation, |cells|)) == Ok(cells)
    ensures KeysAscending(cells) ==> WellFormedTable(STable(TableImage(cells), generation, |cells|))
  {
    OpenWritten(cells, generation);
    WrittenCellsFrom(cells, generation, 0);
  }

  /** `STable.compareTo`: tables are ordered by generation alone. */
  function CompareTables(a: STable, b: STable): (r: int)
    ensures r < 0 <==> a.generation < b.generation
    ensures r == 0 <==> a.generation == b.generation
    ensures r > 0 <==> a.generation > b.generation
  {
    LongCompare(a.generation, b.generation)
  }
}

=== FILE: versions.dfy ===
/** Versioned entries: `Value` (timestamp, payload or tombstone) and `Cell`
    (key, value, generation of the table that produced it), with the
    three-level order the whole read path relies on: key ascending, then
    timestamp descending, then generation descending. */
module Versions {
  import opened Common
  import opened KeyOrder

  /** A payload (absent for a deletion), its write time and the tombstone flag.
      The explicit-timestamp constructor of the source stores all three
      verbatim, and the accessors return them unchanged: exactly a datatype. */
  datatype Value = Value(payload: Option<Bytes>, timestamp: int64, isTombstone: bool)

  /** The pairing every construction site keeps: a tombstone carries no
      payload and a live value always carries one. */
  predicate WellFormed(v: Value) {
    v.isTombstone <==> v.payload.None?
  }

  /** `new Value(payload, false)` as `upsert` and the table reader build it;
      `now` stands for the clock reading. */
  function Live(payload: Bytes, now: int64): (v: Value)
    ensures WellFormed(v) && !v.isTombstone
    ensures v.payload == Some(payload) && v.timestamp == now
  {
    Value(Some(payload), now, false)
  }

  /** `new Value(null, true)` as `remove` and the table reader build it. */
  function Tombstone(now: int64): (v: Value)
    ensures WellFormed(v) && v.isTombstone
    ensures v.payload == None && v.timestamp == now
  {
    Value(None, now, true)
  }

  /** The payload bytes of a value, empty when there is none. */
  function PayloadOf(v: Value): Bytes {
    match v.payload
    case Some(p) => p
    case None => []
  }

  /** `Long.compare(x, y)`. */
  function LongCompare(x: int, y: int): int {
    if x < y then -1 else if x == y then 0 else 1
  }

  /** `Value.compareTo`: `Long.compare(other.timestamp, this.timestamp)`, so
      the newer value sorts first. */
  function ValueCompare(a: Value, b: Value): (r: int)
    ensures r < 0 <==> a.timestamp > b.timestamp
    ensures r == 0 <==> a.timestamp == b.timestamp
    ensures r > 0 <==> a.timestamp < b.timestamp
  {
    LongCompare(b.timestamp, a.timestamp)
  }

  datatype Cell = Cell(key: Key, value: Value, generation: int)

  /** `Cell.of(key, value, generation)`. */
  function CellOf(key: Key, value: Value, generation: int): (c: Cell)
    ensures c.key == key && c.value == value && c.generation == generation
  {
    Cell(key, value, generation)
  }

  /** `Cell.compareTo`: comparing by key, then by value, then by generation
      reversed. */
  function CellCompare(a: Cell, b: Cell): int {
    var byKey := KeyCompare(a.key, b.key);
    if byKey != 0 then byKey
    else
      var byValue := ValueCompare(a.value, b.value);
      if byValue != 0 then byValue
      else LongCompare(b.generation, a.generation)
  }

  /** `a` sorts no later than `b`. */
  predicate CellLe(a: Cell, b: Cell) {
    CellCompare(a, b) <= 0
  }

  /** Cells with different keys are ordered by the key comparison alone. */
  lemma CellOrderByKey(a: Cell, b: Cell)
    requires a.key != b.key
    ensures CellCompare(a, b) == KeyCompare(a.key, b.key)
    ensures CellCompare(a, b) < 0 <==> KeyLess(a.key, b.key)
  {
    KeyCompareZero(a.key, b.key);
  }

  /** Among equal keys, the newer timestamp sorts first. */
  lemma CellOrderByTimestamp(a: Cell, b: Cell)
    requires a.key == b.key && a.value.timestamp != b.value.timestamp
    ensures CellCompare(a, b) < 0 <==> a.value.timestamp > b.value.timestamp
  {
    KeyCompareZero(a.key, b.key);
  }

  /** Among equal keys and timestamps, the higher generation sorts first. */
  lemma CellOrderByGeneration(a: Cell, b: Cell)
    requires a.key == b.key && a.value.timestamp == b.value.timestamp
    ensures CellCompare(a, b) < 0 <==> a.generation > b.generation
    ensures CellCompare(a, b) == 0 <==> a.generation == b.generation
  {
    KeyCompareZero(a.key, b.key);
  }

  /** The comparison is zero exactly when key, timestamp and generation all
      coincide; payload and tombstone flag play no part. */
  lemma CellCompareZero(a: Cell, b: Cell)
    ensures CellCompare(a, b) == 0 <==>
      a.key == b.key && a.value.timestamp == b.value.timestamp && a.generation == b.generation
  {
    KeyCompareZero(a.key, b.key);
  }

  /** The sign of the comparison flips when the operands are swapped. */
  lemma CellCompareAntisymmetric(a: Cell, b: Cell)
    ensures CellCompare(a, b) < 0 <==> CellCompare(b, a) > 0
    ensures CellCompare(a, b) == 0 <==> CellCompare(b, a) == 0
  {
    KeyCompareAntisymmetric(a.key, b.key);
    KeyCompareZero(a.key, b.key);
  }

  /** The order is total and reflexive. */
  lemma CellLeTotal(a: Cell, b: Cell)
    ensures CellLe(a, b) || CellLe(b, a)
    ensures CellLe(a, a)
  {
    CellCompareAntisymmetric(a, b);
    KeyCompareZero(a.key, a.key);
  }

  /** The order is transitive, being a lexicographic composition of three
      total preorders. */
  lemma CellLeTransitive(a: Cell, b: Cell, c: Cell)
    requires CellLe(a, b) && CellLe(b, c)
    ensures CellLe(a, c)
  {
    KeyCompareZero(a.key, b.key);
    KeyCompareZero(b.key, c.key);
    KeyCompareZero(a.key, c.key);
    if a.key == b.key && b.key == c.key {
    } else {
      KeyLeTransitive(a.key, b.key, c.key);
      KeyCompareAntisymmetric(a.key, b.key);
    }
  }

  /** `CellLe` in both directions leaves no difference the comparison sees. */
  lemma CellLeAntisymmetric(a: Cell, b: Cell)
    requires CellLe(a, b) && CellLe(b, a)
    ensures CellCompare(a, b) == 0
    ensures a.key == b.key && a.value.timestamp == b.value.timestamp && a.generation == b.generation
  {
    CellCompareAntisymmetric(a, b);
    CellCompareZero(a, b);
  }

  /** A cell sorting no later than another has a key no greater. */
  lemma CellLeKeyLe(a: Cell, b: Cell)
    requires CellLe(a, b)
    ensures KeyLe(a.key, b.key)
  {
    KeyCompareZero(a.key, b.key);
  }
}
